=== FILE: README.md ===
# igor: pulling and listing .gitignore templates, in Dafny

igor is a command-line tool that lists the `.gitignore` templates of a public
template repository and pulls one of them into the current directory. If a
`.gitignore` already exists there, it first asks the user whether to
overwrite it, append to it, or cancel. This project models the tool's
decision logic as pure Dafny functions and proves properties about them. The
model covers two versions of the program:

- **The `handlers` package** (`List`, `PullIgnoreFile`, `PromptForOverwrite`
  and their helpers). It first checks with a HEAD request that the template
  exists, then checks the local file, then asks, then downloads with a GET.
- **The older single-file `main.go`**. It checks the local file and asks the
  user first, and downloads afterwards.

Every collaborator the code calls is reduced to the outcome it reports. This
covers the HTTP client, the JSON decoder, `os.Stat`, the file opener and the
writes. The pull returns three things: the byte count, the error, and a trace
of the steps it performed. Errors are a datatype that records each `%w`
wrapping layer, so `errors.Is` is modelled exactly for the two sentinel
targets the code tests, `ErrGitignoreNotFound` and `ErrOpCancelledByUser`.

Modules:

- `Errors`: the error values, and the `errors.Is` walk along the wrapping chain.
- `Text`: ASCII lower-casing, `strings.TrimSpace`, `filepath.Ext`,
  `strings.TrimSuffix`, and the order `strings.Compare` computes.
- `Display`: `displayFileList`. It sorts, prints a header, strips
  extensions, and groups by first letter.
- `Listing`: `loadFiles`, `fetchList` and `List` of the package.
- `Prompt`: `PromptForOverwrite` of the package.
- `Pull`: `PullIgnoreFile`, `resourceAvailable`, `downLoadFile` and `Exists`.
- `Legacy`: `fetchList`, `promptForOverwrite`, `downLoadFile` and `main` of
  `main.go`. The `loadFiles` and `displayFileList` of `main.go` are the same
  code as the package's, so the model reuses those.

## Behaviour of the code that the model keeps

- **Only status 200 is success.** Any other status, 2xx included, is an
  error in the probe, the download and the package's listing
  (handlers/handle_pull.go:117, handlers/handle_pull.go:135,
  handlers/handle_list.go:63).
- **Every failed probe is reported as not-found.** `PullIgnoreFile`
  discards the error of `resourceAvailable` and returns
  `ErrGitignoreNotFound` for any failure, transport errors included
  (handlers/handle_pull.go:41-43).
- **The `fileCheck` argument is never called.** The existence check goes
  through `Exists`, which calls `os.Stat` itself
  (handlers/handle_pull.go:33, handlers/handle_pull.go:48).
- **`main.go` asks before it fetches.** It stats the file and prompts
  first, and only then downloads, so a user can answer the prompt and only
  then learn that the language has no template (main.go:81-104). The
  package probes first (handlers/handle_pull.go:41-61).
- **The prompt of `main.go` discards read errors.** Once input is
  exhausted without an acceptable answer it loops forever, and it accepts
  an answer typed without a final newline (main.go:231-246). The package's
  prompt returns the read error instead.
- **The listing of `main.go` does not look at the status code.** It lists
  any response whose body decodes (main.go:188-201).
- **The count `main.go` prints leaves out the appended newline.** It
  prints the bytes copied from the body only (main.go:166-170).

## Model

| member | source | states |
|---|---|---|
| Errors.IsUnwrappedTarget | main.go:106 | `errors.Is` (modelled by `Errors.Is`) against a sentinel holds exactly when the innermost error of the wrapping chain is that sentinel, however many layers wrap it |
| Text.TrimSpacePadding | handlers/prompt.go:31 | white space on either side of a reply does not change what `strings.TrimSpace` leaves |
| Text.TrimSpace | handlers/prompt.go:31 | `strings.TrimSpace` returns the contiguous middle of its input after all of its leading white space, followed only by white space, and neither starting nor ending with white space |
| Text.ExtFromFinalDot | handlers/handle_list.go:47 | `filepath.Ext` is the text from the last dot, when no separator follows that dot |
| Text.Ext | handlers/handle_list.go:47 | `filepath.Ext` is a suffix of the path that is empty or a dot followed by no further dot or separator |
| Text.LexLeTotal | handlers/handle_list.go:76-78 | any two names are comparable under the `strings.Compare` order of the sort |
| Text.LexLeTransitive | handlers/handle_list.go:76-78 | the comparison order of the sort is transitive |
| Text.LexLeAntisymmetric | handlers/handle_list.go:76-78 | two keys that compare equal both ways are the same key |
| Display.SortByKey | handlers/handle_list.go:76-78 | the sorted list is a permutation of the input, non-decreasing by lower-cased name |
| Display.SortedPermutationUnique | handlers/handle_list.go:76-78 | when no two names share a lower-cased form, there is only one arrangement of them sorted by lower-cased name, so the sort's result does not depend on the input order |
| Display.DisplayOrderIndependent | handlers/handle_list.go:74-96 | the printed listing depends only on which names are given, not on their order, when no two share a lower-cased form |
| Display.DisplayName | handlers/handle_list.go:93 | the printed name followed by its extension gives back the file name |
| Display.InsertSorted | handlers/handle_list.go:76-78 | inserting a name into a list sorted by lower-cased name keeps it sorted |
| Display.EmitIsGrouped | handlers/handle_list.go:80-95 | the loop with its zero-character "no group yet" marker puts a separator exactly before each entry whose lower-cased first character differs from the previous entry's, never before the first (unless a group character is itself zero) |
| Display.EmitNames | handlers/handle_list.go:81-95 | the loop prints one name line per file, in order, extension stripped, and when it starts with no group it prints fewer separators than files |
| Display.DisplayShape | handlers/handle_list.go:74-96 | the listing starts with the header; an empty list prints only the header; a single file gets no separator; the name lines are the sorted names without extension |
| Display.DisplayIsGrouped | handlers/handle_list.go:74-96 | the listing is the header followed by the reference grouping of the sorted names |
| Display.DisplayFileList | handlers/handle_list.go:74-96 | the listing starts with the header and prints it only there, then at least one line and at most two lines per file |
| Display.EmitLines | handlers/handle_list.go:80-95 | the loop prints one name line per file with at most one separator before each, and never the header |
| Listing.LoadFiles | handlers/handle_list.go:41-53 | every kept name ends in ".gitignore", and no more names are kept than there are entries |
| Listing.LoadFilesExactly | handlers/handle_list.go:41-53 | a name is kept if and only if some entry that is not a directory carries it and it ends in ".gitignore" |
| Listing.LoadFilesPreservesOrder | handlers/handle_list.go:41-53 | the kept names appear in listing order |
| Listing.LoadFilesAppend | handlers/handle_list.go:41-53 | filtering a listing made of two parts keeps the first part's names followed by the second part's, so each kept entry contributes its name exactly once |
| Listing.LoadFilesSingle | handlers/handle_list.go:44-49 | a one-entry listing keeps that entry's name when it passes the filter, and nothing otherwise |
| Listing.LoadFilesRemove | handlers/handle_list.go:41-53 | taking one entry out of a listing takes at most its own name out of the kept names |
| Listing.LoadFilesPermutation | handlers/handle_list.go:41-53 | reordering the listing's entries reorders the kept names and keeps each with the same multiplicity |
| Listing.ListingOrderIndependent | handlers/handle_list.go:31-53 | the printed listing does not depend on the order in which the repository returns its entries, when no two kept names share a lower-cased form |
| Listing.ExtIsGitIgnoreIffSuffix | handlers/handle_list.go:47 | a final extension of ".gitignore" is the same as ending in ".gitignore" |
| Listing.DisplayNameRoundTrip | handlers/handle_list.go:93 | a kept name is printed without its ".gitignore" suffix, and appending the suffix gives it back |
| Listing.FetchList | handlers/handle_list.go:55-72 | succeeds exactly on a 200 reply whose body decodes, returning the decoded entries; any other status is a status error whatever the body |
| Listing.List | handlers/handle_list.go:31-39 | a failed fetch prints nothing and returns the fetch error wrapped once; otherwise the listing of the kept names is printed |
| Listing.ListIgnoresBodyOnBadStatus | handlers/handle_list.go:63-65 | a non-200 listing is refused with its status, whatever its body holds |
| Prompt.ParseAcceptsExactly | handlers/prompt.go:33-42 | the `switch` of the prompt (modelled by `Prompt.Parse`) selects an option for a normalised reply if and only if the reply is the option's word or that word's first letter |
| Prompt.ValuesDistinct | handlers/prompt.go:17-21 | the three choice constants are distinct and non-empty; the cancel constant carries a trailing blank and is not the word "cancel" |
| Prompt.TokenIgnoresCaseAndPadding | handlers/prompt.go:27-31 | a read line is matched ignoring letter case and surrounding white space, including its newline |
| Prompt.TranscriptShape | handlers/prompt.go:25-43 | the output alternates question and complaint: one question per read, one complaint per rejected line |
| Prompt.Ask | handlers/prompt.go:25-44 | the loop returns the option of the first line that parses, after rejecting every earlier line, or the wrapped read error once the lines run out |
| Prompt.PromptForOverwrite | handlers/prompt.go:23-44 | an option is returned if and only if some complete line is accepted; then it is the first such line's option and no earlier line was accepted; otherwise the read error is returned after every line was read |
| Prompt.LaterLinesUnread | handlers/prompt.go:33-39 | the loop stops at the first accepted line; what follows it is never read |
| Prompt.PromptIgnoresLaterLines | handlers/prompt.go:33-39 | text typed after an accepted line changes nothing |
| Prompt.InvalidThenOverwrite | handlers/prompt.go:25-44 | replying "x" then "o" selects overwrite after one complaint and two questions |
| Prompt.PaddedAppendAccepted | handlers/prompt.go:31-37 | "Append" surrounded by any white space selects append |
| Pull.ResourceAvailable | handlers/handle_pull.go:124-139 | the probe succeeds exactly on a 200 reply; a failed probe's error is the bare not-found sentinel exactly for a 404, and is recognised by `errors.Is` as not-found exactly then |
| Pull.DownLoadFile | handlers/handle_pull.go:108-122 | the body is returned exactly on a 200 reply; the error is the bare not-found sentinel exactly for a 404, and is recognised by `errors.Is` as not-found exactly then |
| Pull.Exists | handlers/handle_pull.go:141-153 | true exactly when the stat succeeds; an error exactly when the stat fails for a reason other than non-existence, and that error is neither sentinel |
| Pull.ModeForChoice | handlers/handle_pull.go:58-76 | the append constant selects append mode, the other constants overwrite, and an answer that is none of the constants keeps the overwrite default |
| Pull.WriteBody | handlers/handle_pull.go:85-103 | the writing steps stop at the first that fails: a failed open after one step, a failed separator (when appending) after two, otherwise after every step; it succeeds exactly when every attempted write succeeds, and its errors are neither sentinel |
| Pull.Transfer | handlers/handle_pull.go:78-105 | the GET comes first and the file is opened only after a 200; the run goes past the open exactly when it succeeded, and reaches the copy exactly when no separator write failed either; it succeeds exactly when the GET is answered with 200 and every write succeeds; errors report 0 bytes, a failed GET is wrapped once more, and an error is recognised as not-found exactly when the GET got a 404 (never for a failed open, separator write or copy) and is never the cancellation; success reports the body length plus one when appending |
| Pull.DownloadStepsOrdered | handlers/handle_pull.go:79-103 | the GET, the open, the separator and the copy are attempted in that order |
| Pull.DownloadPrefixShape | handlers/handle_pull.go:79-103 | however early the download stops, the file is opened only from the second step on, with the mode's flags and 0644, the separator is written exactly when appending and past the open, and the copy is the last step |
| Pull.OrderedPairwise | handlers/handle_pull.go:29-106 | a trace in workflow order takes each step at most once, every step before all later ones |
| Pull.PlanShape | handlers/handle_pull.go:29-106 | any prefix of a run's plan is in workflow order, opens the file only past the download with the mode's flags and 0644, downloads exactly when it goes past the first steps, writes the separator exactly when appending and past the open, and copies only as its last step |
| Pull.PullIgnoreFile | handlers/handle_pull.go:29-106 | the trace is a prefix of the plan (probe, stat, the question when the file exists, then the download steps); a failed probe ends the pull at once with 0 bytes and the not-found sentinel; the download is reached exactly when neither the stat nor the prompt stopped the pull; the file is opened only after a 200; an error raised past the prompt is recognised as not-found exactly when the GET got a 404; the cancellation sentinel is returned exactly when the user answered cancel about an existing file; the pull succeeds exactly when the probe, stat, prompt, GET, open, separator (when appending) and copy all succeed and the answer is not cancel; errors report 0 bytes; success takes every step and counts the body plus one when appending |
| Pull.PlanOrdered | handlers/handle_pull.go:41-61 | a pull starts with the probe, takes its steps in workflow order, and asks exactly when the probe succeeded and the file exists |
| Pull.PlanOpens | handlers/handle_pull.go:71-88 | a pull opens the file only after a 200 GET, with the flags of the chosen mode and 0644 |
| Pull.PlanSeparator | handlers/handle_pull.go:59-98 | a pull writes the separator exactly when the user chose append, the GET was answered with 200 and the open succeeded |
| Pull.PlanCopies | handlers/handle_pull.go:85-103 | a pull copies the body exactly when it got past the stat and the prompt, the GET was answered with 200, the open succeeded and, when appending, so did the separator write |
| Pull.PullTraceOrdered | handlers/handle_pull.go:41-61 | the pull itself starts with the probe, takes its steps in workflow order, and asks exactly when the probe succeeded and the file exists |
| Pull.SeparatorOnlyWhenAppending | handlers/handle_pull.go:59-98 | the pull itself writes the separator exactly when the user chose append, the GET was answered with 200 and the open succeeded |
| Pull.CopyOnlyAfterSeparator | handlers/handle_pull.go:85-103 | the pull itself copies the body exactly when every earlier step succeeded; a failed separator write stops it before the copy |
| Pull.FileCheckIgnored | handlers/handle_pull.go:33-48 | the injected existence check has no influence on the pull |
| Pull.StatErrorAborts | handlers/handle_pull.go:48-51 | a failed existence check ends the pull before any prompt or download, its error wrapped twice |
| Pull.CancelOrPromptErrorStops | handlers/handle_pull.go:52-61 | cancel ends the pull with the cancellation sentinel, and a prompt error ends it wrapped; neither downloads nor opens the file |
| Pull.OpenModeFollowsChoice | handlers/handle_pull.go:59-89 | the file is opened with the append flags exactly when the user chose append, otherwise with the overwrite flags, always with 0644 and only after a 200 download |
| Pull.DownloadFailureNeverOpens | handlers/handle_pull.go:79-89 | a GET not answered with 200 ends the pull with 0 bytes, without opening or writing; a 404 stays recognisable as not-found through the wrapping |
| Pull.PlanStopsBeforeOpen | handlers/handle_pull.go:79-82 | a pull whose GET is not answered with 200 never reaches the open, and it downloads exactly when it goes one step past the steps before the download |
| Pull.SuccessCountsBytes | handlers/handle_pull.go:91-105 | on success the count is the body length plus one when append was chosen, the body length otherwise |
| Pull.NotFoundClassified | handlers/handle_pull.go:41-101 | a failed pull is recognised as not-found by `errors.Is` exactly when the probe failed, the download was reached and the GET got a 404, or a failed prompt's own error was not-found; a failed stat, a cancel and a failed write never are |
| Pull.ConsolePrompt | handlers/handle_pull.go:54-57 | the package's prompt, plugged in, answers with one of the choice constants exactly when it accepts a line |
| Pull.ChoicesReachSwitch | handlers/handle_pull.go:58-68 | every constant the prompt returns reaches its case of the switch: cancel cancels, append downloads in append mode and overwrite in overwrite mode, the pull then ending as the download does |
| Legacy.LegacyFetchList | main.go:188-201 | succeeds exactly when the reply's body decodes, whatever its status; errors are returned unwrapped |
| Legacy.FetchListsAgree | main.go:188-201 | where the package's fetch succeeds the legacy one returns the same entries; it additionally accepts only replies the package refuses for their status |
| Legacy.LegacyTokens | main.go:233-234 | each complete line is matched as the package matches it, and the text pending at end of input is matched too, without a newline |
| Legacy.EmptyReadRejected | main.go:233-245 | a read past the end of input yields nothing acceptable |
| Legacy.LegacyPromptForOverwrite | main.go:229-247 | the loop returns if and only if some complete line or the unterminated rest is accepted, and then with the first accepted reply; otherwise it never returns |
| Legacy.UnterminatedAnswer | main.go:233 | an acceptable answer typed without a final newline is taken by the legacy prompt and rejected with a read error by the package's |
| Legacy.ExhaustedInputHangs | main.go:231-246 | with nothing acceptable typed, the package's prompt fails while the legacy one never returns |
| Legacy.PromptsAgreeOnLines | main.go:236-242 | when a complete line is accepted both prompts pick the same option after the same number of reads |
| Legacy.LegacyAnswersAreWords | main.go:237-242 | the legacy prompt returns the plain words, which are distinct; only its "cancel" differs from the package constant |
| Legacy.LegacyDownload | main.go:133-172 | the GET comes first and the file is opened only after a 200; the error is the bare not-found sentinel exactly for a 404; the copy is reached exactly when the open and any separator write succeeded; errors print no count, and the count printed on success is the body length alone |
| Legacy.DownloadsAgree | main.go:133-172 | the legacy and package downloads take the same number of steps and fail together, the package adding one wrapping layer to a failed GET, and on success the package counts one byte more when appending |
| Legacy.ActionNames | main.go:89-98 | the switch's "cancel" case is taken exactly for cancel and its "append" case exactly for append |
| Legacy.LegacyPlanOrdered | main.go:79-104 | a legacy pull starts with the stat and takes its steps in workflow order |
| Legacy.LegacyPlanAsks | main.go:81-83 | a legacy pull never probes, and asks exactly when the file exists |
| Legacy.LegacyPlanOpens | main.go:104 | a legacy pull opens the file only after a 200 GET, with the flags of the mode `main` chose and 0644 |
| Legacy.PullRun | main.go:79-115 | the trace is a prefix of the plan (stat, the question when the file exists, then the download steps); the download is reached exactly when the file does not exist or the answer is not cancel; a stat error, cancel and a hanging prompt end the run exactly in those cases; once the download is reached the run ends either downloaded or failed, and downloads successfully exactly when the GET is answered with 200 and the open, any separator write and the copy succeed; a success reports the body length and a download failure is not-found exactly for a 404 |
| Legacy.LegacyTraceShape | main.go:79-104 | the legacy pull itself starts with the stat, never probes, takes its steps in workflow order, and asks exactly when the file exists |
| Legacy.Main | main.go:50-116 | the list flag is handled first and lists exactly when the reply's body decodes, showing its kept names; otherwise exactly one argument is required; downloads succeed or fail only in a pull with one argument; a pull never probes, takes its steps in workflow order, and asks exactly when the file exists |
| Legacy.ListModeIgnoresArguments | main.go:53-62 | with the list flag the positional arguments do not matter |
| Legacy.ListingIgnoresStatus | main.go:53-61 | a non-200 listing whose body decodes is printed by the legacy program and refused by the package |
| Legacy.MainPulls | main.go:63-104 | past the argument check, a run is the pull fed with how the legacy prompt ends |
| Legacy.PromptsBeforeNotFound | main.go:81-104 | with an existing file and a missing template the legacy program asks first and reports not-found after the GET, while the package stops at the probe without asking |
| Legacy.CancelAndHangStopBeforeFetch | main.go:88-92 | cancel stops before anything is fetched, and so does a prompt that never returns |
| Legacy.AppendOnlyWhenChosen | main.go:89-104 | the file is opened in append mode exactly when append was answered about an existing file, always with 0644 and only after a 200 GET |

## Left out

- HTTP, JSON decoding and the file system: each call is replaced by the outcome it reports (status, body length, decoded entries, stat result, open/write result).
- URL building (`url.JoinPath` of the language name): the language argument only selects which replies the environment gives.
- Console text: the question, the complaint, the progress messages and the usage text are not modelled as characters. The prompt's output is modelled as a sequence of question and complaint messages.
- Process exit statuses of `main`: the model stops at the outcome a run ends with.
- Releasing the response body and the file (`defer Close`): there are no handles in the model.
- Errors.Is: errors compare structurally, so two separately built errors with equal contents count as the same target. Go's `fmt.Errorf` values are never equal to each other. The code only tests against the two sentinels, where the two agree.
- Text.Ext: follows the Unix `filepath.Ext`, where only '/' stops the backward scan. The Windows separators '\\' and ':' are not modelled.
- Text.LowerChar: lower-cases ASCII letters only, not the full Unicode case mapping of `unicode.ToLower`.
- Invalid UTF-8: strings are sequences of Unicode scalar values. The U+FFFD that `utf8.DecodeRuneInString` yields for bad bytes arises here only for the empty name.
- Display.DisplayOrderIndependent and Listing.ListingOrderIndependent: require that no two names are equal after lower-casing, and that no name repeats. For names that differ only in case, the unstable sort may print them in either order.
- Display.SortByKey: fixes one order among names whose lower-cased forms are equal. `slices.SortFunc` is not stable, so the order of such names is unspecified.
- Display.EmitIsGrouped: requires that no name groups under the zero character, the loop's own "no group yet" marker. The contract says nothing about names whose first character is NUL.
- Pull.PullIgnoreFile: the byte count is an unbounded natural, so the `int64` overflow that would need a body over 2^63 bytes is not modelled.
- Bytes written before a failed copy or separator write: the source discards them and reports 0, and so does the model. The partially written file is not modelled.
- Legacy.LegacyPromptForOverwrite: for a loop that never returns, only the messages up to the first read past the end of input are recorded.
- The mock HTTP client and the tests of the `handlers` package are not part of this model.

=== FILE: display.dfy ===
/** `displayFileList`: case-insensitive sort, a header, one line per file
    with its extension stripped, and a separator whenever the lower-cased
    first character changes. The output is a sequence of lines rather than
    writes to standard output. */
module Display {
  import opened Text
  import opened Seqs

  /** One printed line: the header ("Available .gitignore files:" and a
      blank line), a "---" separator, or a name with its extension stripped. */
  datatype Line = Header | Separator | Name(text: string)

  /** The sort key: the lower-cased full name. */
  function Key(name: string): string
  {
    Lower(name)
  }

  /** Non-decreasing under `strings.Compare` of the lower-cased names. */
  predicate SortedByKey(s: seq<string>)
  {
    forall i, j :: 0 <= i < j < |s| ==> LexLe(Key(s[i]), Key(s[j]))
  }

  /** Places `x` before the first element whose key is not below its own. */
  function Insert(x: string, s: seq<string>): (r: seq<string>)
    ensures multiset(r) == multiset(s) + multiset{x}
    ensures |r| == |s| + 1
  {
    if s == [] then [x]
    else if LexLe(Key(x), Key(s[0])) then [x] + s
    else
      assert s == [s[0]] + s[1..];
      [s[0]] + Insert(x, s[1..])
  }

  /** A lower bound of `x` and of every element of `s` bounds every element
      of the insertion. */
  lemma {:induction false} InsertLowerBound(x: string, s: seq<string>, y: string)
    requires LexLe(Key(y), Key(x))
    requires forall j :: 0 <= j < |s| ==> LexLe(Key(y), Key(s[j]))
    ensures forall k :: 0 <= k < |Insert(x, s)| ==> LexLe(Key(y), Key(Insert(x, s)[k]))
    decreases |s|
  {
    if s != [] && !LexLe(Key(x), Key(s[0])) {
      InsertLowerBound(x, s[1..], y);
    }
  }

  /** Insertion into a sorted list keeps it sorted. */
  lemma {:induction false} InsertSorted(x: string, s: seq<string>)
    requires SortedByKey(s)
    ensures SortedByKey(Insert(x, s))
    decreases |s|
  {
    if s != [] {
      if LexLe(Key(x), Key(s[0])) {
        forall j | 0 <= j < |s| ensures LexLe(Key(x), Key(s[j])) {
          if j > 0 { LexLeTransitive(Key(x), Key(s[0]), Key(s[j])); }
        }
      } else {
        InsertSorted(x, s[1..]);
        LexLeTotal(Key(x), Key(s[0]));
        InsertLowerBound(x, s[1..], s[0]);
      }
    }
  }

  /** The order `slices.SortFunc` leaves the names in: a permutation of the
      input, non-decreasing by lower-cased name. */
  function SortByKey(s: seq<string>): (r: seq<string>)
    ensures SortedByKey(r)
    ensures multiset(r) == multiset(s)
    ensures |r| == |s|
  {
    if s == [] then []
    else
      assert s == [s[0]] + s[1..];
      var rest := SortByKey(s[1..]);
      InsertSorted(s[0], rest);
      Insert(s[0], rest)
  }

  /** No name occurs twice, and no two names share a lower-cased form. */
  predicate DistinctKeys(m: multiset<string>)
  {
    && (forall x :: x in m ==> m[x] == 1)
    && (forall x, y :: x in m && y in m && Key(x) == Key(y) ==> x == y)
  }

  /** Two sorted lists holding the same names, no two of them equal after
      lower-casing, are the same list: for such names the order of the
      input does not matter. */
  lemma {:induction false} SortedPermutationUnique(a: seq<string>, b: seq<string>)
    requires SortedByKey(a) && SortedByKey(b)
    requires multiset(a) == multiset(b) && DistinctKeys(multiset(a))
    ensures a == b
    decreases |a|
  {
    if a != [] {
      TailsQualify(a, b);
      SortedPermutationUnique(a[1..], b[1..]);
      ConsEqual(a, b);
    }
  }

  /** The tails of two such lists again meet the conditions, and the heads
      agree. */
  lemma TailsQualify(a: seq<string>, b: seq<string>)
    requires a != [] && SortedByKey(a) && SortedByKey(b)
    requires multiset(a) == multiset(b) && DistinctKeys(multiset(a))
    ensures b != [] && a[0] == b[0]
    ensures SortedByKey(a[1..]) && SortedByKey(b[1..])
    ensures multiset(a[1..]) == multiset(b[1..]) && DistinctKeys(multiset(a[1..]))
  {
    SortedHeadsEqual(a, b);
    DistinctKeysTail(a);
    SortedTail(a);
    SortedTail(b);
  }

  /** Two sorted non-empty lists holding the same names with distinct keys
      start with the same name, and hold the same names after it. */
  lemma SortedHeadsEqual(a: seq<string>, b: seq<string>)
    requires a != [] && SortedByKey(a) && SortedByKey(b)
    requires multiset(a) == multiset(b) && DistinctKeys(multiset(a))
    ensures b != [] && a[0] == b[0] && multiset(a[1..]) == multiset(b[1..])
  {
    SortedHeadKeys(a, b);
    SameKeySameName(multiset(a), a[0], b[0]);
    DropHead(a, b);
  }

  /** Two sorted lists holding the same names start with equal keys. */
  lemma SortedHeadKeys(a: seq<string>, b: seq<string>)
    requires a != [] && SortedByKey(a) && SortedByKey(b) && multiset(a) == multiset(b)
    ensures b != [] && a[0] in multiset(a) && b[0] in multiset(a) && Key(a[0]) == Key(b[0])
  {
    assert a[0] in multiset(b);
    assert b[0] in multiset(a);
    SortedHeadIsLeast(a, b[0]);
    SortedHeadIsLeast(b, a[0]);
    LexLeAntisymmetric(Key(a[0]), Key(b[0]));
  }

  lemma SameKeySameName(m: multiset<string>, x: string, y: string)
    requires DistinctKeys(m) && x in m && y in m && Key(x) == Key(y)
    ensures x == y
  {
  }

  lemma DropHead(a: seq<string>, b: seq<string>)
    requires a != [] && b != [] && a[0] == b[0] && multiset(a) == multiset(b)
    ensures multiset(a[1..]) == multiset(b[1..])
  {
    assert a == [a[0]] + a[1..];
    assert b == [b[0]] + b[1..];
    assert multiset(a) == multiset(a[1..]) + multiset{a[0]};
    assert multiset(b) == multiset(b[1..]) + multiset{a[0]};
    MultisetCancel(multiset(a[1..]), multiset(b[1..]), a[0]);
  }

  /** The first name of a sorted list has the least key. */
  lemma SortedHeadIsLeast(s: seq<string>, x: string)
    requires SortedByKey(s) && x in multiset(s)
    ensures s != [] && LexLe(Key(s[0]), Key(x))
  {
    var k :| 0 <= k < |s| && s[k] == x;
    LexLeTotal(Key(s[0]), Key(s[0]));
  }

  lemma SortedTail(s: seq<string>)
    requires s != [] && SortedByKey(s)
    ensures SortedByKey(s[1..])
  {
  }

  lemma DistinctKeysTail(s: seq<string>)
    requires s != [] && DistinctKeys(multiset(s))
    ensures DistinctKeys(multiset(s[1..]))
  {
    assert s == [s[0]] + s[1..];
    assert multiset(s[1..]) <= multiset(s);
  }

  /** The listing of a set of names with distinct lower-cased forms does
      not depend on the order the names arrive in. */
  lemma DisplayOrderIndependent(a: seq<string>, b: seq<string>)
    requires multiset(a) == multiset(b) && DistinctKeys(multiset(a))
    ensures DisplayFileList(a) == DisplayFileList(b)
  {
    SortedPermutationUnique(SortByKey(a), SortByKey(b));
  }

  /** The grouping character of a name: its lower-cased first character, or
      U+FFFD (what `utf8.DecodeRuneInString` yields) for the empty name. */
  function GroupKey(name: string): char
  {
    if name == [] then '\U{FFFD}' else LowerChar(name[0])
  }

  /** What is printed for a file: the name with its final extension removed. */
  function DisplayName(name: string): (r: string)
    ensures r + Ext(name) == name
  {
    TrimSuffix(name, Ext(name))
  }

  /** The loop of `displayFileList` over the (already sorted) names, as
      written: `current` starts as the zero character, which the loop treats
      as "no group yet". */
  function Emit(names: seq<string>, current: char): (r: seq<Line>)
    decreases |names|
  {
    if names == [] then []
    else
      var first := GroupKey(names[0]);
      var current' := if current == 0 as char then first else current;
      var sep := if first != current' then [Separator] else [];
      var current'' := if first != current' then first else current';
      sep + [Name(DisplayName(names[0]))] + Emit(names[1..], current'')
  }

  /** The printed lines for a listing. */
  function DisplayFileList(files: seq<string>): (r: seq<Line>)
    ensures 1 + |files| <= |r| <= 1 + 2 * |files|
    ensures r[0] == Header && Header !in r[1..]
  {
    var body := Emit(SortByKey(files), 0 as char);
    EmitLines(SortByKey(files), 0 as char);
    assert ([Header] + body)[1..] == body;
    [Header] + body
  }

  /** The loop prints one name line per file and at most one separator
      before each, and never the header. */
  lemma {:induction false} EmitLines(names: seq<string>, current: char)
    ensures |names| <= |Emit(names, current)| <= 2 * |names|
    ensures Header !in Emit(names, current)
    decreases |names|
  {
    if names != [] {
      var first := GroupKey(names[0]);
      var current' := if current == 0 as char then first else current;
      var current'' := if first != current' then first else current';
      EmitLines(names[1..], current'');
    }
  }

  // ---------------------------------------------------------------------
  // Reference definition of the grouped layout, one entry at a time.

  /** A separator goes before entry `i` exactly when it is not the first and
      its group character differs from its predecessor's. */
  predicate SeparatorBefore(s: seq<string>, i: nat)
    requires i < |s|
  {
    i > 0 && GroupKey(s[i]) != GroupKey(s[i - 1])
  }

  function Entry(s: seq<string>, i: nat): seq<Line>
    requires i < |s|
  {
    (if SeparatorBefore(s, i) then [Separator] else []) + [Name(DisplayName(s[i]))]
  }

  /** The lines for entries `k..` of `s`. */
  function Grouped(s: seq<string>, k: nat): seq<Line>
    requires k <= |s|
    decreases |s| - k
  {
    if k == |s| then [] else Entry(s, k) + Grouped(s, k + 1)
  }

  predicate NoNulGroup(s: seq<string>)
  {
    forall i :: 0 <= i < |s| ==> GroupKey(s[i]) != 0 as char
  }

  /** The group the loop is in when it reaches entry `k`. */
  function GroupAt(s: seq<string>, k: nat): char
    requires k <= |s|
  {
    if k == 0 then 0 as char else GroupKey(s[k - 1])
  }

  lemma {:induction false} EmitFromIndex(s: seq<string>, k: nat)
    requires k <= |s| && NoNulGroup(s)
    ensures Emit(s[k..], GroupAt(s, k)) == Grouped(s, k)
    decreases |s| - k
  {
    if k < |s| {
      var rest := s[k..];
      assert rest[0] == s[k];
      assert rest[1..] == s[k + 1..];
      var first := GroupKey(s[k]);
      var sep: seq<Line> := if SeparatorBefore(s, k) then [Separator] else [];
      assert Emit(rest, GroupAt(s, k)) == sep + [Name(DisplayName(s[k]))] + Emit(s[k + 1..], first);
      EmitFromIndex(s, k + 1);
      assert GroupAt(s, k + 1) == first;
    } else {
      assert s[k..] == [];
    }
  }

  /** The loop as written lays out exactly the reference grouping, provided
      no name's group character is the zero character the loop uses as its
      "no group yet" marker. */
  lemma EmitIsGrouped(s: seq<string>)
    requires NoNulGroup(s)
    ensures Emit(s, 0 as char) == Grouped(s, 0)
  {
    EmitFromIndex(s, 0);
    assert s[0..] == s;
  }

  /** The file names among the printed lines, in order. */
  function Names(lines: seq<Line>): seq<string>
  {
    if lines == [] then []
    else (if lines[0].Name? then [lines[0].text] else []) + Names(lines[1..])
  }

  function SeparatorCount(lines: seq<Line>): nat
  {
    if lines == [] then 0
    else (if lines[0] == Separator then 1 else 0) + SeparatorCount(lines[1..])
  }

  lemma {:induction false} NamesAppend(a: seq<Line>, b: seq<Line>)
    ensures Names(a + b) == Names(a) + Names(b)
    ensures SeparatorCount(a + b) == SeparatorCount(a) + SeparatorCount(b)
    decreases |a|
  {
    if a == [] {
      assert a + b == b;
    } else {
      assert (a + b)[0] == a[0];
      assert (a + b)[1..] == a[1..] + b;
      NamesAppend(a[1..], b);
    }
  }

  /** Whatever the group characters, the loop prints one line per name, in
      input order, each with its extension stripped. */
  lemma {:induction false} EmitNames(names: seq<string>, current: char)
    ensures Names(Emit(names, current)) == seq(|names|, i requires 0 <= i < |names| => DisplayName(names[i]))
    ensures SeparatorCount(Emit(names, current)) <= |names|
    ensures current == 0 as char && names != [] ==> SeparatorCount(Emit(names, current)) < |names|
    decreases |names|
  {
    if names != [] {
      var first := GroupKey(names[0]);
      var current' := if current == 0 as char then first else current;
      var sep := if first != current' then [Separator] else [];
      var current'' := if first != current' then first else current';
      var tail := Emit(names[1..], current'');
      EmitNames(names[1..], current'');
      NamesAppend(sep + [Name(DisplayName(names[0]))], tail);
      NamesAppend(sep, [Name(DisplayName(names[0]))]);
      assert Names([Name(DisplayName(names[0]))]) == [DisplayName(names[0])];
      assert Emit(names, current) == sep + [Name(DisplayName(names[0]))] + tail;
    }
  }

  lemma NoNulGroupPermutation(a: seq<string>, b: seq<string>)
    requires multiset(a) == multiset(b) && NoNulGroup(a)
    ensures NoNulGroup(b)
  {
    forall i | 0 <= i < |b| ensures GroupKey(b[i]) != 0 as char {
      assert b[i] in multiset(a);
      var j :| 0 <= j < |a| && a[j] == b[i];
    }
  }

  /** The printed listing: the header first, then exactly one name line per
      file (in sorted order, extension stripped) and fewer separators than
      files; an empty listing prints the header alone and a single file gets
      no separator. */
  lemma DisplayShape(files: seq<string>)
    ensures DisplayFileList(files)[0] == Header
    ensures Names(DisplayFileList(files)[1..])
            == seq(|files|, i requires 0 <= i < |files| => DisplayName(SortByKey(files)[i]))
    ensures files == [] ==> DisplayFileList(files) == [Header]
    ensures files != [] ==> SeparatorCount(DisplayFileList(files)) < |files|
    ensures |files| == 1 ==> SeparatorCount(DisplayFileList(files)) == 0
  {
    var sorted := SortByKey(files);
    var body := Emit(sorted, 0 as char);
    EmitNames(sorted, 0 as char);
    NamesAppend([Header], body);
    assert DisplayFileList(files) == [Header] + body;
    assert ([Header] + body)[1..] == body;
  }

  /** When no group character is the zero character, the listing is the
      header followed by the reference grouping of the sorted names. */
  lemma DisplayIsGrouped(files: seq<string>)
    requires NoNulGroup(files)
    ensures DisplayFileList(files) == [Header] + Grouped(SortByKey(files), 0)
  {
    NoNulGroupPermutation(files, SortByKey(files));
    EmitIsGrouped(SortByKey(files));
  }
}

=== FILE: errors.dfy ===
/** The error values the puller and lister hand back, and Go's `errors.Is`
    walk along the `%w` wrapping chain. */
module Errors {

  datatype Option<+T> = None | Some(value: T)

  datatype Result<+T> = Ok(value: T) | Err(error: Error)

  /** The call site that wrapped an error with `fmt.Errorf("...: %w", err)`. */
  datatype Context =
    | FetchingList      // "could not fetch file list from ..."
    | DecodingBody      // "failed to decode body"
    | MakingRequest     // "failed to make HTTP request to ..."
    | CheckingFile      // "failed to check for file ..."
    | ReadingInput      // "failed to read user input" / "Error reading user input"
    | Downloading       // "failed to download file ..."
    | OpeningFile       // "failed to open/create file ..."
    | WritingSeparator  // "failed to write append separator"
    | CopyingContent    // "failed to copy content to file ..."

  datatype Error =
    | GitignoreNotFound          // the sentinel ErrGitignoreNotFound
    | OpCancelledByUser          // the sentinel ErrOpCancelledByUser
    | TransportFailure           // the HTTP client returned an error
    | BadStatus(code: int)       // "received non-OK HTTP status" (formatted with %s, not wrapped)
    | DecodeFailure              // the JSON decoder rejected the body
    | StatFailure                // os.Stat failed for a reason other than not-exist
    | ReadFailure                // the input reader returned an error
    | OpenFailure                // opening the destination failed
    | WriteFailure               // a write or copy into the destination failed
    | Wrapped(context: Context, cause: Error)

  /** Go's `errors.Is(err, target)` for comparable sentinel targets. */
  predicate Is(err: Error, target: Error)
  {
    err == target || (err.Wrapped? && Is(err.cause, target))
  }

  /** The innermost error of a wrapping chain. */
  function Root(err: Error): (r: Error)
    ensures !r.Wrapped?
    ensures Is(err, r)
  {
    if err.Wrapped? then Root(err.cause) else err
  }

  /** For an unwrapped target, `errors.Is` succeeds exactly when the chain ends in it. */
  lemma {:induction false} IsUnwrappedTarget(err: Error, target: Error)
    requires !target.Wrapped?
    ensures Is(err, target) <==> Root(err) == target
  {
    if err.Wrapped? {
      IsUnwrappedTarget(err.cause, target);
    }
  }
}

=== FILE: legacy.dfy ===
/** The single-file program of `main.go`, which predates the `handlers`
    package: a `--list` mode, and a pull that checks for an existing file,
    prompts, and only then downloads. It shares `loadFiles` and
    `displayFileList` with the package (the two copies are the same code)
    and differs from it in `fetchList`, the prompt and the download. */
module Legacy {
  import opened Errors
  import opened Text
  import opened Display
  import opened Listing
  import opened Prompt
  import opened Pull

  // ---------------------------------------------------------------------
  // fetchList

  /** `fetchList` of `main.go`: the status code is never looked at; only a
      transport error or a body that does not decode fails, and neither is
      wrapped. */
  function LegacyFetchList(resp: ListResponse): (r: Result<seq<ContentEntry>>)
    ensures r.Ok? <==> resp.ListReply? && resp.decoded.Some?
    ensures r.Ok? ==> r.value == resp.decoded.value
    ensures r.Err? ==> !r.error.Wrapped?
  {
    match resp
    case ListTransportFailure => Err(TransportFailure)
    case ListReply(_, decoded) =>
      match decoded
      case None => Err(DecodeFailure)
      case Some(content) => Ok(content)
  }

  /** Whenever the package's `fetchList` succeeds the legacy one succeeds
      with the same entries; the legacy one also accepts any other status
      whose body decodes, which the package refuses. */
  lemma FetchListsAgree(resp: ListResponse)
    ensures FetchList(resp).Ok? ==> LegacyFetchList(resp) == FetchList(resp)
    ensures LegacyFetchList(resp).Ok? && FetchList(resp).Err? ==>
              resp.status != StatusOK && FetchList(resp) == Err(BadStatus(resp.status))
  {
  }

  // ---------------------------------------------------------------------
  // promptForOverwrite

  /** Whether the legacy prompt loop ever returns, and with what. */
  datatype Reply = Returns(choice: Choice) | NeverReturns

  /** `readCount` and `messages` cover the reads up to the one that
      returned; for a loop that never returns, up to the first read past the
      end of input, after which the question and the complaint alternate
      forever. */
  datatype LegacySession = LegacySession(reply: Reply, readCount: nat, messages: seq<Message>)

  /** What each successive read is matched as. The read error is discarded,
      so the text pending at end of input is matched as well (without a
      newline); every later read yields the empty string. */
  function LegacyTokens(input: Input): (ts: seq<Option<Choice>>)
    ensures |ts| == |input.lines| + 1
    ensures forall j :: 0 <= j < |input.lines| ==> ts[j] == Token(input.lines[j])
    ensures ts[|input.lines|] == Parse(Normalize(input.rest))
  {
    Tokens(input.lines) + [Parse(Normalize(input.rest))]
  }

  /** A read past the end of input yields "", which is not a choice. */
  lemma EmptyReadRejected()
    ensures Parse(Normalize("")) == None
  {
    assert Lower("") == "";
    TrimSpaceBare("");
  }

  /** `promptForOverwrite` of `main.go`. */
  function LegacyPromptForOverwrite(input: Input): (r: LegacySession)
    ensures r.reply.Returns? <==>
              (exists j :: 0 <= j < |input.lines| && Accepted(input.lines[j]))
              || Parse(Normalize(input.rest)).Some?
    ensures r.reply.Returns? ==>
              && 1 <= r.readCount <= |input.lines| + 1
              && (forall j :: 0 <= j < r.readCount - 1 ==> !Accepted(input.lines[j]))
              && (r.readCount <= |input.lines| ==> Token(input.lines[r.readCount - 1]) == Some(r.reply.choice))
              && (r.readCount == |input.lines| + 1 ==> Parse(Normalize(input.rest)) == Some(r.reply.choice))
    ensures r.reply.NeverReturns? ==> r.readCount == |input.lines| + 2
    ensures multiset(r.messages)[Question] == r.readCount
    ensures multiset(r.messages)[Invalid] == r.readCount - 1
  {
    var ts := LegacyTokens(input);
    var s := Ask(ts);
    TranscriptShape(s.readCount);
    if s.answer.Ok? then
      LegacySession(Returns(s.answer.value), s.readCount, s.messages)
    else
      assert forall j :: 0 <= j < |ts| ==> ts[j].None?;
      LegacySession(NeverReturns, s.readCount, s.messages)
  }

  /** An answer typed without a final newline: the package's prompt reports
      the read error, while the legacy prompt takes the answer. */
  lemma UnterminatedAnswer(input: Input)
    requires forall j :: 0 <= j < |input.lines| ==> !Accepted(input.lines[j])
    requires Parse(Normalize(input.rest)).Some?
    ensures PromptForOverwrite(input).answer == Err(Wrapped(ReadingInput, ReadFailure))
    ensures LegacyPromptForOverwrite(input).reply == Returns(Parse(Normalize(input.rest)).value)
    ensures LegacyPromptForOverwrite(input).readCount == |input.lines| + 1
  {
    var r := LegacyPromptForOverwrite(input);
    assert r.reply.Returns?;
    assert r.readCount <= |input.lines| ==> Accepted(input.lines[r.readCount - 1]);
  }

  /** When the user types nothing acceptable before the end of input, the
      package's prompt fails while the legacy prompt never returns. */
  lemma ExhaustedInputHangs(input: Input)
    requires forall j :: 0 <= j < |input.lines| ==> !Accepted(input.lines[j])
    requires Parse(Normalize(input.rest)).None?
    ensures PromptForOverwrite(input).answer.Err?
    ensures LegacyPromptForOverwrite(input).reply == NeverReturns
  {
  }

  /** Once a full line is accepted both prompts choose the same option. */
  lemma PromptsAgreeOnLines(input: Input)
    requires PromptForOverwrite(input).answer.Ok?
    ensures LegacyPromptForOverwrite(input).reply == Returns(PromptForOverwrite(input).answer.value)
    ensures LegacyPromptForOverwrite(input).readCount == PromptForOverwrite(input).readCount
  {
    var j :| 0 <= j < |input.lines| && Accepted(input.lines[j]);
    var ts := LegacyTokens(input);
    assert ts == Tokens(input.lines) + [Parse(Normalize(input.rest))];
    assert Tokens(input.lines)[j].Some?;
    LaterLinesUnread(Tokens(input.lines), [Parse(Normalize(input.rest))]);
  }

  /** The legacy prompt returns the plain word of the choice (`Word`), so
      its "cancel" has no trailing blank. The three words are distinct,
      and only the cancel answer differs from the package's constant. */
  lemma LegacyAnswersAreWords(c1: Choice, c2: Choice)
    ensures Word(c1) == Word(c2) <==> c1 == c2
    ensures Word(c1) == Value(c1) <==> c1 != Cancel
  {
  }

  // ---------------------------------------------------------------------
  // downLoadFile

  /** What the environment of one run would report. */
  datatype Env = Env(
    listing: ListResponse,
    stat: StatOutcome,
    stdin: Input,
    get: HttpOutcome,
    open: IoOutcome,
    separator: IoOutcome,
    copy: IoOutcome)

  /** The open mode the `appendMode` flag selects. */
  function ModeOf(appendMode: bool): Mode
  {
    if appendMode then AppendMode else OverwriteMode
  }

  /** `downLoadFile` of `main.go`: the GET is checked exactly as the
      package's `downLoadFile` checks it, but its error is returned without
      further wrapping, and the count printed is that of the copied content
      alone. `written` is that printed count. */
  function LegacyDownload(env: Env, appendMode: bool): (r: Attempt)
    ensures 1 <= r.steps <= |DownloadSteps(ModeOf(appendMode))|
    ensures r.steps >= 2 <==> IsOK(env.get)
    ensures r.err.Some? ==> r.written == 0
    ensures r.err.Some? ==> (Is(r.err.value, GitignoreNotFound) <==> IsNotFound(env.get))
    ensures r.err == Some(GitignoreNotFound) <==> IsNotFound(env.get)
    ensures r.steps == |DownloadSteps(ModeOf(appendMode))| <==>
              IsOK(env.get) && env.open != IoFailed && !(appendMode && env.separator == IoFailed)
    ensures r.err.None? ==>
              IsOK(env.get) && r.written == env.get.bodyLen && r.steps == |DownloadSteps(ModeOf(appendMode))|
  {
    match DownLoadFile(env.get)
    case Err(e) => Attempt(0, Some(e), 1)
    case Ok(n) =>
      var w := WriteBody(env.open, env.separator, env.copy, ModeOf(appendMode));
      Attempt(if w.err.None? then n else 0, w.err, 1 + w.steps)
  }

  /** The same collaborators in a `Script` of the package. */
  predicate SameTransfer(s: Script, env: Env)
  {
    s.get == env.get && s.open == env.open && s.separator == env.separator && s.copy == env.copy
  }

  /** The two downloads take the same steps. They fail together, the
      package adding one layer of wrapping to a failed GET, and on success
      the package counts the appended newline that the legacy program
      leaves out of the count it prints. */
  lemma DownloadsAgree(s: Script, env: Env, mode: Mode)
    requires SameTransfer(s, env)
    ensures Transfer(s, mode).steps == LegacyDownload(env, mode == AppendMode).steps
    ensures Transfer(s, mode).err.Some? <==> LegacyDownload(env, mode == AppendMode).err.Some?
    ensures !IsOK(env.get) ==>
              Transfer(s, mode).err == Some(Wrapped(Downloading, LegacyDownload(env, mode == AppendMode).err.value))
    ensures Transfer(s, mode).err.None? ==>
              Transfer(s, mode).written
              == LegacyDownload(env, mode == AppendMode).written + (if mode == AppendMode then 1 else 0)
  {
    assert ModeOf(mode == AppendMode) == mode;
  }

  // ---------------------------------------------------------------------
  // main

  /** The `--list` flag and the positional arguments left after flag
      parsing. */
  datatype Args = Args(list: bool, positional: seq<string>)

  /** How a run ends. `PromptHangs` is a run stuck in the prompt loop. */
  datatype Exit =
    | Listed(lines: seq<Line>)
    | ListFailed
    | UsageShown
    | PromptHangs
    | Cancelled
    | StatFailed
    | DownloadFailed(err: Error)
    | Downloaded(reported: nat)

  datatype Run = Run(exit: Exit, trace: seq<Effect>)

  /** The steps before the download, then as many of the download's as it
      attempted. */
  function Finish(before: seq<Effect>, appendMode: bool, d: Attempt): Run
    requires d.steps <= |DownloadSteps(ModeOf(appendMode))|
  {
    Run(if d.err.Some? then DownloadFailed(d.err.value) else Downloaded(d.written),
        Plan(before, ModeOf(appendMode))[..|before| + d.steps])
  }

  /** The answer strings the `switch` of `main` tests for. */
  lemma ActionNames(c: Choice)
    ensures Word(c) == "cancel" <==> c == Cancel
    ensures Word(c) == "append" <==> c == Append
  {
  }

  /** The steps of `main` before the download: the stat, and the question
      when the file exists. */
  function LegacyBefore(env: Env): seq<Effect>
  {
    if env.stat == Found then [StatFile, AskUser] else [StatFile]
  }

  /** The mode `main` writes in: append exactly when the file exists and
      the prompt returned append. */
  function LegacyMode(env: Env, reply: Reply): Mode
  {
    if env.stat == Found && reply == Returns(Append) then AppendMode else OverwriteMode
  }

  /** How a trace of the pull of `main` relates to its environment: it is
      a prefix of the plan that takes every step before the download; the
      download is reached exactly when the file does not exist or the user
      answered something other than cancel; the file is opened only after
      a GET answered 200; and the body is copied exactly when, in addition,
      the open and any separator write succeeded. */
  predicate LegacyFollowsPlan(env: Env, reply: Reply, trace: seq<Effect>)
  {
    && |LegacyBefore(env)| <= |trace| <= |Plan(LegacyBefore(env), LegacyMode(env, reply))|
    && trace == Plan(LegacyBefore(env), LegacyMode(env, reply))[..|trace|]
    && (|trace| > |LegacyBefore(env)| <==>
          env.stat == NotExist || (env.stat == Found && reply.Returns? && reply.choice != Cancel))
    && (|trace| >= |LegacyBefore(env)| + 2 ==> IsOK(env.get))
    && (|trace| == |Plan(LegacyBefore(env), LegacyMode(env, reply))| <==>
          && |trace| > |LegacyBefore(env)| && IsOK(env.get) && env.open != IoFailed
          && !(LegacyMode(env, reply) == AppendMode && env.separator == IoFailed))
  }

  /** Any trace that follows the plan starts with the stat and takes each
      step at most once, in workflow order. */
  lemma LegacyPlanOrdered(env: Env, reply: Reply, trace: seq<Effect>)
    requires LegacyFollowsPlan(env, reply, trace)
    ensures trace[0] == StatFile && Ordered(trace)
  {
    PlanShape(LegacyBefore(env), LegacyMode(env, reply), |trace|);
    assert trace[0] == LegacyBefore(env)[0];
  }

  /** Any trace that follows the plan never probes, and asks exactly when
      the file exists. */
  lemma LegacyPlanAsks(env: Env, reply: Reply, trace: seq<Effect>)
    requires LegacyFollowsPlan(env, reply, trace)
    ensures Probe !in trace
    ensures AskUser in trace <==> env.stat == Found
  {
    var before := LegacyBefore(env);
    PlanShape(before, LegacyMode(env, reply), |trace|);
    assert Probe !in before;
    assert AskUser in before <==> env.stat == Found;
    if env.stat == Found {
      assert trace[1] == before[1];
    }
  }

  /** Any trace that follows the plan opens the file only after a GET
      answered 200, with the flags of the mode `main` chose and 0644. */
  lemma LegacyPlanOpens(env: Env, reply: Reply, trace: seq<Effect>)
    requires LegacyFollowsPlan(env, reply, trace)
    ensures forall e :: e in trace && e.OpenFile? ==>
              IsOK(env.get) && e == OpenFile(Flags(LegacyMode(env, reply)), FilePerm)
  {
    var p := Plan(LegacyBefore(env), LegacyMode(env, reply));
    PlanShape(LegacyBefore(env), LegacyMode(env, reply), |trace|);
    assert trace == p[..|trace|];
  }

  /** The pull of `main` once the argument is accepted, given how the
      prompt would end if it were reached: stat, ask when the file exists,
      then download. The download is reached exactly when the file does not
      exist or the user answered something other than cancel. */
  function PullRun(env: Env, reply: Reply): (r: Run)
    ensures LegacyFollowsPlan(env, reply, r.trace)
    ensures r.exit == StatFailed <==> env.stat == StatError
    ensures r.exit == Cancelled <==> env.stat == Found && reply == Returns(Cancel)
    ensures r.exit == PromptHangs <==> env.stat == Found && reply == NeverReturns
    ensures r.exit.Downloaded? ==> IsOK(env.get) && r.exit.reported == env.get.bodyLen
    ensures r.exit.Downloaded? <==>
              && (env.stat == NotExist || (env.stat == Found && reply.Returns? && reply.choice != Cancel))
              && IsOK(env.get) && env.open != IoFailed
              && (LegacyMode(env, reply) == AppendMode ==> env.separator != IoFailed) && env.copy != IoFailed
    ensures r.exit.DownloadFailed? <==>
              && !r.exit.Downloaded?
              && (env.stat == NotExist || (env.stat == Found && reply.Returns? && reply.choice != Cancel))
    ensures r.exit.DownloadFailed? ==> (Is(r.exit.err, GitignoreNotFound) <==> IsNotFound(env.get))
  {
    match env.stat
    case StatError => Run(StatFailed, [StatFile])
    case NotExist => Finish([StatFile], false, LegacyDownload(env, false))
    case Found =>
      match reply
      case NeverReturns => Run(PromptHangs, [StatFile, AskUser])
      case Returns(c) =>
        var action := Word(c);
        ActionNames(c);
        if action == "cancel" then Run(Cancelled, [StatFile, AskUser])
        else Finish([StatFile, AskUser], action == "append", LegacyDownload(env, action == "append"))
  }

  /** A pull of `main` starts with the stat, never probes, takes each step
      at most once in workflow order, and asks exactly when the file
      exists. */
  lemma LegacyTraceShape(env: Env, reply: Reply)
    ensures PullRun(env, reply).trace[0] == StatFile
    ensures Ordered(PullRun(env, reply).trace) && Probe !in PullRun(env, reply).trace
    ensures AskUser in PullRun(env, reply).trace <==> env.stat == Found
  {
    LegacyPlanOrdered(env, reply, PullRun(env, reply).trace);
    LegacyPlanAsks(env, reply, PullRun(env, reply).trace);
  }

  /** `main`. The list flag is handled first, whatever the arguments; a
      pull needs exactly one argument; an existing file is asked about
      before anything is fetched. */
  function Main(args: Args, env: Env): (r: Run)
    ensures Ordered(r.trace) && Probe !in r.trace
    ensures args.list ==> r.trace == [] && (r.exit.Listed? || r.exit == ListFailed)
    ensures args.list ==> (r.exit.Listed? <==> LegacyFetchList(env.listing).Ok?)
    ensures args.list && r.exit.Listed? ==>
              LegacyFetchList(env.listing).Ok?
              && r.exit.lines == DisplayFileList(LoadFiles(LegacyFetchList(env.listing).value))
    ensures !args.list && |args.positional| != 1 ==> r == Run(UsageShown, [])
    ensures !args.list && |args.positional| == 1 ==> |r.trace| > 0 && r.trace[0] == StatFile
    ensures AskUser in r.trace <==> !args.list && |args.positional| == 1 && env.stat == Found
    ensures r.exit.Downloaded? ==>
              !args.list && |args.positional| == 1 && IsOK(env.get) && r.exit.reported == env.get.bodyLen
    ensures r.exit.DownloadFailed? ==> !args.list && |args.positional| == 1
    ensures r.exit.DownloadFailed? ==> (Is(r.exit.err, GitignoreNotFound) <==> IsNotFound(env.get))
  {
    if args.list then
      match LegacyFetchList(env.listing)
      case Err(_) => Run(ListFailed, [])
      case Ok(content) => Run(Listed(DisplayFileList(LoadFiles(content))), [])
    else if |args.positional| != 1 then Run(UsageShown, [])
    else
      var reply := LegacyPromptForOverwrite(env.stdin).reply;
      LegacyTraceShape(env, reply);
      PullRun(env, reply)
  }

  /** With the list flag the positional arguments do not matter. */
  lemma ListModeIgnoresArguments(args: Args, env: Env, positional: seq<string>)
    requires args.list
    ensures Main(args, env) == Main(Args(true, positional), env)
  {
  }

  /** The legacy listing prints a listing for any status whose body
      decodes, where the package's `List` reports the status as an error. */
  lemma ListingIgnoresStatus(args: Args, env: Env, status: int, content: seq<ContentEntry>)
    requires args.list && env.listing == ListReply(status, Some(content)) && status != StatusOK
    ensures Main(args, env).exit == Listed(DisplayFileList(LoadFiles(content)))
    ensures List(env.listing).err == Some(Wrapped(FetchingList, BadStatus(status)))
  {
  }

  /** Past the argument check, `main` is the pull stage fed with how the
      prompt would end. */
  lemma MainPulls(args: Args, env: Env)
    requires !args.list && |args.positional| == 1
    ensures Main(args, env) == PullRun(env, LegacyPromptForOverwrite(env.stdin).reply)
  {
  }

  /** An existing file is asked about before the template is fetched, so a
      user whose language has no template is still prompted for overwrite
      or append, and only then told that it is missing. The package probes
      first and never asks. */
  lemma PromptsBeforeNotFound(env: Env, c: Choice, s: Script)
    requires env.stat == Found && c != Cancel
    requires IsNotFound(env.get) && s.head == env.get
    ensures PullRun(env, Returns(c)) == Run(DownloadFailed(GitignoreNotFound), [StatFile, AskUser, Fetch])
    ensures PullIgnoreFile(s) == PullOutcome(0, Some(GitignoreNotFound), [Probe])
  {
    var r := PullRun(env, Returns(c));
    assert |r.trace| == 3;
    assert r.trace == Plan([StatFile, AskUser], LegacyMode(env, Returns(c)))[..3];
  }

  /** Cancel stops the run before anything is fetched; a prompt that never
      returns holds the run in the loop. */
  lemma CancelAndHangStopBeforeFetch(env: Env)
    requires env.stat == Found
    ensures PullRun(env, Returns(Cancel)) == Run(Cancelled, [StatFile, AskUser])
    ensures PullRun(env, NeverReturns) == Run(PromptHangs, [StatFile, AskUser])
  {
  }

  /** The file is opened in append mode exactly when the user answered
      append to the question about an existing file, and in overwrite mode
      otherwise, always with permissions 0644, and only after a GET
      answered 200. */
  lemma AppendOnlyWhenChosen(env: Env, reply: Reply)
    ensures forall e :: e in PullRun(env, reply).trace && e.OpenFile? ==>
              && IsOK(env.get)
              && e.perm == FilePerm
              && (e.flags == Flags(AppendMode) <==> env.stat == Found && reply == Returns(Append))
  {
    LegacyPlanOpens(env, reply, PullRun(env, reply).trace);
    assert Flags(AppendMode) != Flags(OverwriteMode) by {
      assert OAppend in Flags(AppendMode);
    }
  }
}

=== FILE: listing.dfy ===
/** The lister of the `handlers` package: `fetchList`, `loadFiles` and
    `List`. The HTTP exchange is reduced to its outcome and the JSON decoder
    to the entries it produced (or its failure). */
module Listing {
  import opened Errors
  import opened Text
  import opened Display
  import Pull
  import opened Seqs

  const TYPE_DIR := "dir"

  /** One object of the contents listing: its `name` and `type` fields. */
  datatype ContentEntry = ContentEntry(name: string, kind: string)

  /** What `client.Get` on the listing endpoint came back with: a transport
      error, or a status code together with what decoding the body as a JSON
      array of entries would give. */
  datatype ListResponse =
    | ListTransportFailure
    | ListReply(status: int, decoded: Option<seq<ContentEntry>>)

  /** The test `loadFiles` applies to one entry: any type but "dir", and a
      final extension of exactly ".gitignore" (case-sensitive). */
  predicate Keep(e: ContentEntry)
  {
    e.kind != TYPE_DIR && Ext(e.name) == Pull.GIT_IGNORE
  }

  /** `loadFiles`: the names of the kept entries, in listing order. */
  function LoadFiles(content: seq<ContentEntry>): (r: seq<string>)
    ensures |r| <= |content|
    ensures forall i :: 0 <= i < |r| ==> HasSuffix(r[i], Pull.GIT_IGNORE)
  {
    if content == [] then []
    else (if Keep(content[0]) then [content[0].name] else []) + LoadFiles(content[1..])
  }

  /** `loadFiles` handles each entry on its own: a listing split in two
      keeps the names of each part, one per kept entry, in order. */
  lemma {:induction false} LoadFilesAppend(a: seq<ContentEntry>, b: seq<ContentEntry>)
    ensures LoadFiles(a + b) == LoadFiles(a) + LoadFiles(b)
    ensures LoadFiles([]) == []
    decreases |a|
  {
    if a == [] {
      assert a + b == b;
    } else {
      assert (a + b)[0] == a[0];
      assert (a + b)[1..] == a[1..] + b;
      LoadFilesAppend(a[1..], b);
    }
  }

  /** One entry contributes its name exactly when it is kept. */
  lemma LoadFilesSingle(e: ContentEntry)
    ensures LoadFiles([e]) == (if Keep(e) then [e.name] else [])
  {
    assert [e][1..] == [];
  }

  /** Reordering the listing reorders the kept names: the same names, each
      as many times. */
  lemma {:induction false} LoadFilesPermutation(a: seq<ContentEntry>, b: seq<ContentEntry>)
    requires multiset(a) == multiset(b)
    ensures multiset(LoadFiles(a)) == multiset(LoadFiles(b))
    decreases |a|
  {
    if a != [] {
      var i := RemoveHead(a, b);
      var rest := b[..i] + b[i + 1..];
      LoadFilesPermutation(a[1..], rest);
      LoadFilesRemove(b[..i], a[0], b[i + 1..]);
      LoadFilesAppend([a[0]], a[1..]);
      assert [a[0]] + a[1..] == a;
    }
  }

  /** Taking an entry out of a listing takes its name, if kept, out of the
      kept names. */
  lemma LoadFilesRemove(b1: seq<ContentEntry>, x: ContentEntry, b2: seq<ContentEntry>)
    ensures multiset(LoadFiles(b1 + [x] + b2)) == multiset(LoadFiles(b1 + b2)) + multiset(LoadFiles([x]))
  {
    LoadFilesAppend(b1, [x]);
    LoadFilesAppend(b1 + [x], b2);
    LoadFilesAppend(b1, b2);
    MultisetMiddle(LoadFiles(b1), LoadFiles([x]), LoadFiles(b2));
  }

  /** The printed listing does not depend on the order of the entries,
      provided no two kept names are equal after lower-casing. */
  lemma ListingOrderIndependent(a: seq<ContentEntry>, b: seq<ContentEntry>)
    requires multiset(a) == multiset(b) && DistinctKeys(multiset(LoadFiles(a)))
    ensures DisplayFileList(LoadFiles(a)) == DisplayFileList(LoadFiles(b))
  {
    LoadFilesPermutation(a, b);
    DisplayOrderIndependent(LoadFiles(a), LoadFiles(b));
  }

  /** A final extension of ".gitignore" is the same thing as a name ending in
      ".gitignore": the suffix contains no further dot or separator. */
  lemma ExtIsGitIgnoreIffSuffix(name: string)
    ensures Ext(name) == Pull.GIT_IGNORE <==> HasSuffix(name, Pull.GIT_IGNORE)
  {
    if HasSuffix(name, Pull.GIT_IGNORE) {
      var j := |name| - |Pull.GIT_IGNORE|;
      assert name[j..] == Pull.GIT_IGNORE;
      assert name[j] == '.';
      assert name[j + 1..] == "gitignore";
      ExtFromFinalDot(name, j);
    }
  }

  /** A kept name is its display name followed by ".gitignore". */
  lemma DisplayNameRoundTrip(name: string)
    requires HasSuffix(name, Pull.GIT_IGNORE)
    ensures DisplayName(name) + Pull.GIT_IGNORE == name
    ensures |DisplayName(name)| == |name| - |Pull.GIT_IGNORE|
  {
    ExtIsGitIgnoreIffSuffix(name);
  }

  /** `loadFiles` keeps a name exactly when some entry carrying it is not a
      directory and ends in ".gitignore". */
  lemma {:induction false} LoadFilesExactly(content: seq<ContentEntry>, n: string)
    ensures n in LoadFiles(content)
            <==> exists e :: e in content && e.name == n && e.kind != TYPE_DIR && HasSuffix(n, Pull.GIT_IGNORE)
    decreases |content|
  {
    if content != [] {
      LoadFilesExactly(content[1..], n);
      ExtIsGitIgnoreIffSuffix(content[0].name);
      assert content == [content[0]] + content[1..];
      if n in LoadFiles(content[1..]) {
        var e :| e in content[1..] && e.name == n && e.kind != TYPE_DIR && HasSuffix(n, Pull.GIT_IGNORE);
        assert e in content;
      }
    }
  }

  /** `xs` can be obtained from `ys` by deleting elements. */
  predicate IsSubsequence<T(==)>(xs: seq<T>, ys: seq<T>)
    decreases |ys|
  {
    xs == [] || (ys != [] && ((xs[0] == ys[0] && IsSubsequence(xs[1..], ys[1..])) || IsSubsequence(xs, ys[1..])))
  }

  function NamesOf(content: seq<ContentEntry>): (r: seq<string>)
    ensures |r| == |content|
    ensures forall i :: 0 <= i < |content| ==> r[i] == content[i].name
  {
    seq(|content|, i requires 0 <= i < |content| => content[i].name)
  }

  /** `loadFiles` keeps the listing order: its result is a subsequence of the
      entries' names. */
  lemma {:induction false} LoadFilesPreservesOrder(content: seq<ContentEntry>)
    ensures IsSubsequence(LoadFiles(content), NamesOf(content))
    decreases |content|
  {
    if content != [] {
      LoadFilesPreservesOrder(content[1..]);
      assert NamesOf(content)[1..] == NamesOf(content[1..]);
      var rest := LoadFiles(content[1..]);
      if Keep(content[0]) {
        assert LoadFiles(content) == [content[0].name] + rest;
        assert LoadFiles(content)[1..] == rest;
      } else {
        assert LoadFiles(content) == rest;
      }
    }
  }

  /** `fetchList`: a transport error is passed through, any status but 200
      is an error and decoding is not attempted, and a decoding failure is
      wrapped. */
  function FetchList(resp: ListResponse): (r: Result<seq<ContentEntry>>)
    ensures r.Ok? <==> resp.ListReply? && resp.status == Pull.StatusOK && resp.decoded.Some?
    ensures r.Ok? ==> r.value == resp.decoded.value
    ensures resp.ListReply? && resp.status != Pull.StatusOK ==> r == Err(BadStatus(resp.status))
  {
    match resp
    case ListTransportFailure => Err(TransportFailure)
    case ListReply(status, decoded) =>
      if status != Pull.StatusOK then Err(BadStatus(status))
      else match decoded
        case None => Err(Wrapped(DecodingBody, DecodeFailure))
        case Some(content) => Ok(content)
  }

  /** What `List` leaves behind: the error it returned, if any, and the
      lines it printed. */
  datatype ListRun = ListRun(err: Option<Error>, printed: seq<Line>)

  /** `List`: fetch, filter, display; a failed fetch prints nothing and
      returns the error wrapped with the listing URL. */
  function List(resp: ListResponse): (r: ListRun)
    ensures r.err.Some? <==> FetchList(resp).Err?
    ensures r.err.Some? ==> r.printed == [] && r.err.value == Wrapped(FetchingList, FetchList(resp).error)
    ensures r.err.None? ==> r.printed == DisplayFileList(LoadFiles(resp.decoded.value))
  {
    match FetchList(resp)
    case Err(e) => ListRun(Some(Wrapped(FetchingList, e)), [])
    case Ok(content) => ListRun(None, DisplayFileList(LoadFiles(content)))
  }

  /** A non-200 listing is refused whatever its body holds. */
  lemma ListIgnoresBodyOnBadStatus(status: int, d1: Option<seq<ContentEntry>>, d2: Option<seq<ContentEntry>>)
    requires status != Pull.StatusOK
    ensures List(ListReply(status, d1)) == List(ListReply(status, d2))
    ensures List(ListReply(status, d1)).err == Some(Wrapped(FetchingList, BadStatus(status)))
  {
  }
}

=== FILE: prompt.dfy ===
/** `PromptForOverwrite` of the `handlers` package: ask, read a line,
    normalise it, and either return a choice or complain and ask again. */
module Prompt {
  import opened Errors
  import opened Text

  datatype Choice = Overwrite | Append | Cancel

  /** The string constants of type `choice`. `ChoiceCancel` carries a
      trailing blank. */
  function Value(c: Choice): string
  {
    match c
    case Overwrite => "overwrite"
    case Append => "append"
    case Cancel => "cancel "
  }

  /** The long word the user may type for each option; its first letter is
      the short form. */
  function Word(c: Choice): string
  {
    match c
    case Overwrite => "overwrite"
    case Append => "append"
    case Cancel => "cancel"
  }

  /** Lower-case, then trim surrounding white space. */
  function Normalize(raw: string): string
  {
    TrimSpace(Lower(raw))
  }

  /** The `switch` on the normalised input. */
  function Parse(input: string): Option<Choice>
  {
    match input
    case "o" => Some(Overwrite)
    case "overwrite" => Some(Overwrite)
    case "a" => Some(Append)
    case "append" => Some(Append)
    case "c" => Some(Cancel)
    case "cancel" => Some(Cancel)
    case _ => None
  }

  /** A normalised input selects `c` exactly when it is `c`'s word or that
      word's first letter. */
  lemma ParseAcceptsExactly(input: string, c: Choice)
    ensures Parse(input) == Some(c) <==> input == Word(c) || input == Word(c)[..1]
  {
    match c
    case Overwrite => assert Word(c)[..1] == "o";
    case Append => assert Word(c)[..1] == "a";
    case Cancel => assert Word(c)[..1] == "c";
  }

  /** The three constants differ from each other and from the empty choice
      returned on error; `ChoiceCancel` is not the word "cancel" the user
      types, while the other two constants are their words. */
  lemma ValuesDistinct(c1: Choice, c2: Choice)
    ensures Value(c1) == Value(c2) <==> c1 == c2
    ensures Value(c1) != ""
    ensures Value(Cancel) != Word(Cancel)
    ensures c1 != Cancel ==> Value(c1) == Word(c1)
  {
  }

  /** The text an input line would be matched as: the line as `ReadString`
      returns it, newline included. */
  function Token(line: string): Option<Choice>
  {
    Parse(Normalize(line + "\n"))
  }

  /** Case and surrounding white space do not matter. */
  lemma {:induction false} TokenIgnoresCaseAndPadding(pre: string, word: string, post: string)
    requires AllSpace(pre) && AllSpace(post)
    ensures Token(pre + word + post) == Parse(TrimSpace(Lower(word)))
  {
    var post' := post + "\n";
    assert AllSpace(post');
    assert pre + word + post + "\n" == pre + word + post';
    LowerAppend(pre, word);
    LowerAppend(pre + word, post');
    LowerKeepsSpace(pre);
    LowerKeepsSpace(post');
    assert Lower(pre + word + post') == pre + Lower(word) + post';
    TrimSpacePadding(pre, Lower(word), post');
    assert Normalize(pre + word + post + "\n") == TrimSpace(Lower(word));
  }

  /** What the user typed: lines that were read in full (without their
      newline), then a read that fails, returning `rest` (text without a
      final newline, possibly empty) together with the error. The reader
      splits at every newline, so by convention neither a line nor `rest`
      contains '\n'; the functions below do not rely on it. */
  datatype Input = Input(lines: seq<string>, rest: string)

  /** What `PromptForOverwrite` writes: the question, and the complaint
      after a rejected line. */
  datatype Message = Question | Invalid

  datatype Session = Session(answer: Result<Choice>, readCount: nat, messages: seq<Message>)

  /** A line that selects a choice. */
  predicate Accepted(line: string)
  {
    Token(line).Some?
  }

  /** The messages of a session that read `n` lines: the question before
      every read and a complaint between consecutive questions. */
  function Transcript(n: nat): seq<Message>
    requires n >= 1
  {
    if n == 1 then [Question] else [Question, Invalid] + Transcript(n - 1)
  }

  /** A transcript alternates question and complaint, starting and ending
      with a question: `n` questions and `n - 1` complaints. */
  lemma {:induction false} TranscriptShape(n: nat)
    requires n >= 1
    ensures |Transcript(n)| == 2 * n - 1
    ensures forall k :: 0 <= k < |Transcript(n)| ==> Transcript(n)[k] == (if k % 2 == 0 then Question else Invalid)
    ensures multiset(Transcript(n))[Question] == n && multiset(Transcript(n))[Invalid] == n - 1
  {
    if n > 1 {
      TranscriptShape(n - 1);
      var t := Transcript(n - 1);
      assert Transcript(n) == [Question, Invalid] + t;
      forall k | 2 <= k < |Transcript(n)|
        ensures Transcript(n)[k] == (if k % 2 == 0 then Question else Invalid)
      {
        assert Transcript(n)[k] == t[k - 2];
      }
    }
  }

  /** The prompt loop over what each successive line parses to. */
  function Ask(tokens: seq<Option<Choice>>): (r: Session)
    ensures 1 <= r.readCount <= |tokens| + 1
    ensures r.messages == Transcript(r.readCount)
    ensures forall j :: 0 <= j < r.readCount - 1 ==> tokens[j].None?
    ensures r.answer.Ok? ==> r.readCount <= |tokens| && tokens[r.readCount - 1] == Some(r.answer.value)
    ensures r.answer.Err? ==> r.readCount == |tokens| + 1 && r.answer.error == Wrapped(ReadingInput, ReadFailure)
    decreases |tokens|
  {
    if tokens == [] then Session(Err(Wrapped(ReadingInput, ReadFailure)), 1, [Question])
    else if tokens[0].Some? then Session(Ok(tokens[0].value), 1, [Question])
    else
      var r := Ask(tokens[1..]);
      Session(r.answer, r.readCount + 1, [Question, Invalid] + r.messages)
  }

  function Tokens(lines: seq<string>): (ts: seq<Option<Choice>>)
    ensures |ts| == |lines|
    ensures forall j :: 0 <= j < |lines| ==> ts[j] == Token(lines[j])
  {
    seq(|lines|, j requires 0 <= j < |lines| => Token(lines[j]))
  }

  /** `PromptForOverwrite`: the choice of the first accepted line, or the
      wrapped read error once the lines run out. Text pending at the failed
      read is never matched. The question is written once per read and the
      complaint once per rejected line. */
  function PromptForOverwrite(input: Input): (r: Session)
    ensures r.answer.Ok? <==> exists j :: 0 <= j < |input.lines| && Accepted(input.lines[j])
    ensures r.answer.Ok? ==>
              && 1 <= r.readCount <= |input.lines|
              && Token(input.lines[r.readCount - 1]) == Some(r.answer.value)
              && forall j :: 0 <= j < r.readCount - 1 ==> !Accepted(input.lines[j])
    ensures r.answer.Err? ==>
              && r.answer.error == Wrapped(ReadingInput, ReadFailure)
              && r.readCount == |input.lines| + 1
    ensures multiset(r.messages)[Question] == r.readCount
    ensures multiset(r.messages)[Invalid] == r.readCount - 1
  {
    var r := Ask(Tokens(input.lines));
    TranscriptShape(r.readCount);
    r
  }

  /** Lines after the first accepted one are never read. */
  lemma {:induction false} LaterLinesUnread(tokens: seq<Option<Choice>>, more: seq<Option<Choice>>)
    requires exists j :: 0 <= j < |tokens| && tokens[j].Some?
    ensures Ask(tokens + more) == Ask(tokens)
    decreases |tokens|
  {
    assert (tokens + more)[0] == tokens[0];
    if tokens[0].None? {
      var j :| 0 <= j < |tokens| && tokens[j].Some?;
      assert tokens[1..][j - 1] == tokens[j];
      assert (tokens + more)[1..] == tokens[1..] + more;
      LaterLinesUnread(tokens[1..], more);
    }
  }

  lemma TokensAppend(a: seq<string>, b: seq<string>)
    ensures Tokens(a + b) == Tokens(a) + Tokens(b)
  {
    forall k | 0 <= k < |a| + |b| ensures Tokens(a + b)[k] == (Tokens(a) + Tokens(b))[k] {
      if k < |a| {
        assert (a + b)[k] == a[k];
      } else {
        assert (a + b)[k] == b[k - |a|];
      }
    }
  }

  /** Typing more after an accepted line changes nothing. */
  lemma PromptIgnoresLaterLines(lines: seq<string>, more: seq<string>, rest: string, rest': string)
    requires exists j :: 0 <= j < |lines| && Accepted(lines[j])
    ensures PromptForOverwrite(Input(lines + more, rest')) == PromptForOverwrite(Input(lines, rest))
  {
    var j :| 0 <= j < |lines| && Accepted(lines[j]);
    TokensAppend(lines, more);
    assert Tokens(lines)[j].Some?;
    LaterLinesUnread(Tokens(lines), Tokens(more));
  }

  lemma TokenUnpadded(line: string)
    ensures Token(line) == Parse(TrimSpace(Lower(line)))
  {
    TokenIgnoresCaseAndPadding([], line, []);
    assert [] + line + [] == line;
  }

  /** A line without surrounding white space is matched as its lower-cased self. */
  lemma TokenOfBareWord(line: string)
    requires line != [] ==> !IsSpace(line[0]) && !IsSpace(line[|line| - 1])
    ensures Token(line) == Parse(Lower(line))
  {
    var w := Lower(line);
    if line != [] {
      LowerCharKeepsNonSpace(line[0]);
      LowerCharKeepsNonSpace(line[|line| - 1]);
    }
    TrimSpaceBare(w);
    TokenUnpadded(line);
  }

  lemma XRejected()
    ensures Token("x") == None
  {
    assert Lower("x") == "x";
    TokenOfBareWord("x");
  }

  lemma OAccepted()
    ensures Token("o") == Some(Overwrite)
  {
    assert Lower("o") == "o";
    TokenOfBareWord("o");
  }

  lemma AskRejectThenAccept()
    ensures Ask([None, Some(Overwrite)]) == Session(Ok(Overwrite), 2, [Question, Invalid, Question])
  {
    assert [None, Some(Overwrite)][1..] == [Some(Overwrite)];
  }

  lemma TokensXO()
    ensures Tokens(["x", "o"]) == [None, Some(Overwrite)]
  {
    XRejected();
    OAccepted();
  }

  /** An invalid line followed by "o": overwrite, after one complaint. */
  lemma InvalidThenOverwrite()
    ensures PromptForOverwrite(Input(["x", "o"], "")) == Session(Ok(Overwrite), 2, [Question, Invalid, Question])
  {
    TokensXO();
    AskRejectThenAccept();
  }

  lemma AppendLowered()
    ensures Lower("Append") == "append"
  {
  }

  lemma AppendTrimmed()
    ensures TrimSpace("append") == "append"
  {
    TrimSpaceBare("append");
  }

  lemma AppendWordParses()
    ensures Parse(TrimSpace(Lower("Append"))) == Some(Append)
  {
    AppendLowered();
    AppendTrimmed();
  }

  /** "Append" surrounded by any white space, " Append " say, is accepted
      as append. */
  lemma PaddedAppendAccepted(pre: string, post: string)
    requires AllSpace(pre) && AllSpace(post)
    ensures Token(pre + "Append" + post) == Some(Append)
  {
    TokenIgnoresCaseAndPadding(pre, "Append", post);
    AppendWordParses();
  }
}

=== FILE: pull.dfy ===
/** `PullIgnoreFile` of the `handlers` package and its helpers
    `resourceAvailable`, `downLoadFile` and `Exists`. Every collaborator
    (HTTP client, `os.Stat`, the prompt, `openFile`, the writes) is reduced
    to the outcome it reports, gathered in a `Script`; the pull returns the
    byte count, the error, and the trace of the effects it performed. */
module Pull {
  import opened Errors
  import opened Prompt

  const GIT_IGNORE := ".gitignore"
  const StatusOK := 200
  const StatusNotFound := 404

  /** The permission bits 0644 passed to `openFile`. */
  const FilePerm := 0x1A4

  datatype OpenFlag = OAppend | OCreate | OTrunc | OWronly

  datatype Mode = AppendMode | OverwriteMode

  /** The `APPEND` and `OVERWRITE` flag combinations. */
  function Flags(m: Mode): set<OpenFlag>
  {
    match m
    case AppendMode => {OAppend, OCreate, OWronly}
    case OverwriteMode => {OTrunc, OCreate, OWronly}
  }

  /** What a HEAD or GET came back with: a transport error, or a status and
      the length of the body. */
  datatype HttpOutcome = Transport | Reply(status: int, bodyLen: nat)

  /** What `os.Stat` (or the injected `fileCheck`) reported. */
  datatype StatOutcome = Found | NotExist | StatError

  /** What the injected prompt function returned: a `choice` string (any
      string, not only the three constants), or an error. */
  datatype PromptOutcome = Answered(choice: string) | PromptFailed(cause: Error)

  datatype IoOutcome = IoOk | IoFailed

  /** The outcomes the collaborators would report, one per step. */
  datatype Script = Script(
    head: HttpOutcome,
    fileCheck: StatOutcome,
    stat: StatOutcome,
    prompt: PromptOutcome,
    get: HttpOutcome,
    open: IoOutcome,
    separator: IoOutcome,
    copy: IoOutcome)

  datatype Effect =
    | Probe          // HEAD on the template URL
    | StatFile       // os.Stat(".gitignore")
    | AskUser        // the prompt function
    | Fetch          // GET on the template URL
    | OpenFile(flags: set<OpenFlag>, perm: int)
    | WriteSeparator // "\n" before appended content
    | CopyBody       // io.Copy of the body

  /** The position of each step in the workflow. */
  function Rank(e: Effect): nat
  {
    match e
    case Probe => 0
    case StatFile => 1
    case AskUser => 2
    case Fetch => 3
    case OpenFile(_, _) => 4
    case WriteSeparator => 5
    case CopyBody => 6
  }

  /** Each step comes after the one before it in workflow order. */
  predicate Ordered(trace: seq<Effect>)
  {
    forall i :: 0 < i < |trace| ==> Rank(trace[i - 1]) < Rank(trace[i])
  }

  /** An ordered trace performs each step at most once, in workflow order. */
  lemma {:induction false} OrderedPairwise(trace: seq<Effect>)
    requires Ordered(trace)
    ensures forall i, j :: 0 <= i < j < |trace| ==> Rank(trace[i]) < Rank(trace[j])
    decreases |trace|
  {
    if |trace| > 1 {
      var init := trace[..|trace| - 1];
      OrderedPairwise(init);
      forall i, j | 0 <= i < j < |trace| ensures Rank(trace[i]) < Rank(trace[j]) {
        if j < |trace| - 1 {
          assert trace[i] == init[i] && trace[j] == init[j];
        } else if i < j - 1 {
          assert trace[i] == init[i] && trace[j - 1] == init[j - 1];
        }
      }
    }
  }

  datatype PullOutcome = PullOutcome(written: nat, err: Option<Error>, trace: seq<Effect>)

  predicate IsOK(o: HttpOutcome)
  {
    o.Reply? && o.status == StatusOK
  }

  predicate IsNotFound(o: HttpOutcome)
  {
    o.Reply? && o.status == StatusNotFound
  }

  /** `resourceAvailable`: true only for a HEAD answered with exactly 200;
      a 404 is the not-found sentinel and everything else another error. */
  function ResourceAvailable(head: HttpOutcome): (r: (bool, Option<Error>))
    ensures r.0 <==> IsOK(head)
    ensures r.0 <==> r.1.None?
    ensures r.1.Some? ==> (Is(r.1.value, GitignoreNotFound) <==> IsNotFound(head))
    ensures r.1 == Some(GitignoreNotFound) <==> IsNotFound(head)
  {
    match head
    case Transport => (false, Some(Wrapped(MakingRequest, TransportFailure)))
    case Reply(status, _) =>
      if status == StatusNotFound then (false, Some(GitignoreNotFound))
      else if status != StatusOK then (false, Some(BadStatus(status)))
      else (true, None)
  }

  /** `downLoadFile`: the body (here its length) on exactly 200; otherwise an
      error that is the not-found sentinel exactly for a 404. */
  function DownLoadFile(get: HttpOutcome): (r: Result<nat>)
    ensures r.Ok? <==> IsOK(get)
    ensures r.Ok? ==> r.value == get.bodyLen
    ensures r.Err? ==> (Is(r.error, GitignoreNotFound) <==> IsNotFound(get))
    ensures r == Err(GitignoreNotFound) <==> IsNotFound(get)
  {
    match get
    case Transport => Err(Wrapped(MakingRequest, TransportFailure))
    case Reply(status, bodyLen) =>
      if status == StatusNotFound then Err(GitignoreNotFound)
      else if status != StatusOK then Err(BadStatus(status))
      else Ok(bodyLen)
  }

  /** `Exists`: true on a successful stat, false without error when the file
      does not exist, and a wrapped error otherwise. */
  function Exists(stat: StatOutcome): (r: (bool, Option<Error>))
    ensures r.0 <==> stat == Found
    ensures r.1.Some? <==> stat == StatError
    ensures r.1.Some? ==> !Is(r.1.value, GitignoreNotFound) && !Is(r.1.value, OpCancelledByUser)
  {
    match stat
    case Found => (true, None)
    case NotExist => (false, None)
    case StatError => (false, Some(Wrapped(CheckingFile, StatFailure)))
  }

  /** The mode the answer of the prompt selects: the `switch` over the
      `choice` constants; an answer matching none of them keeps the
      overwrite default. */
  function ModeFor(answer: string): Mode
  {
    if answer == Value(Append) then AppendMode else OverwriteMode
  }

  /** Each constant the prompt can return selects its own mode: append
      for the append constant, overwrite for the others; an empty or
      unknown answer keeps the overwrite default. */
  lemma ModeForChoice(c: Choice, other: string)
    requires forall c' :: other != Value(c')
    ensures ModeFor(Value(c)) == AppendMode <==> c == Append
    ensures ModeFor(other) == OverwriteMode
  {
    ValuesDistinct(c, Append);
  }

  /** How far a run of steps got: the error, if any, and the number of
      steps attempted, the failing one included. */
  datatype Progress = Progress(err: Option<Error>, steps: nat)

  /** The download and the writing steps in the order they are attempted:
      the GET, the open of the destination with the mode's flags and 0644,
      the newline separator when appending, then the copy of the body. */
  function DownloadSteps(mode: Mode): seq<Effect>
  {
    match mode
    case AppendMode => [Fetch, OpenFile(Flags(AppendMode), FilePerm), WriteSeparator, CopyBody]
    case OverwriteMode => [Fetch, OpenFile(Flags(OverwriteMode), FilePerm), CopyBody]
  }

  /** Attempt the writing steps (all of `DownloadSteps(mode)` after the GET)
      in order, stopping at the first that fails: a failed open stops after
      one step, a failed separator after two, and a failed copy after all
      of them. */
  function WriteBody(open: IoOutcome, separator: IoOutcome, copy: IoOutcome, mode: Mode): (r: Progress)
    ensures 1 <= r.steps < |DownloadSteps(mode)|
    ensures r.steps >= 2 <==> open != IoFailed
    ensures r.err.None? <==> open != IoFailed && (mode == AppendMode ==> separator != IoFailed) && copy != IoFailed
    ensures r.err.None? ==> r.steps == |DownloadSteps(mode)| - 1
    ensures mode == AppendMode && open != IoFailed && separator == IoFailed ==> r.steps == 2
    ensures r.steps == |DownloadSteps(mode)| - 1 <==> open != IoFailed && !(mode == AppendMode && separator == IoFailed)
    ensures r.err.Some? ==> !Is(r.err.value, GitignoreNotFound) && !Is(r.err.value, OpCancelledByUser)
  {
    var last := |DownloadSteps(mode)| - 1;
    if open == IoFailed then Progress(Some(Wrapped(OpeningFile, OpenFailure)), 1)
    else if mode == AppendMode && separator == IoFailed then Progress(Some(Wrapped(WritingSeparator, WriteFailure)), 2)
    else if copy == IoFailed then Progress(Some(Wrapped(CopyingContent, WriteFailure)), last)
    else Progress(None, last)
  }

  /** What a download followed by the writing steps left behind: the bytes
      reported, the error, and how many of `DownloadSteps` were attempted. */
  datatype Attempt = Attempt(written: nat, err: Option<Error>, steps: nat)

  /** Download, then the writing steps. A failed GET is wrapped once more;
      success counts the body plus the separator when appending. */
  function Transfer(s: Script, mode: Mode): (r: Attempt)
    ensures 1 <= r.steps <= |DownloadSteps(mode)|
    ensures r.steps >= 2 <==> IsOK(s.get)
    ensures r.steps >= 3 <==> IsOK(s.get) && s.open != IoFailed
    ensures r.steps == |DownloadSteps(mode)| <==>
              IsOK(s.get) && s.open != IoFailed && !(mode == AppendMode && s.separator == IoFailed)
    ensures r.err.Some? ==> r.written == 0
    ensures r.err.None? <==>
              IsOK(s.get) && s.open != IoFailed && (mode == AppendMode ==> s.separator != IoFailed) && s.copy != IoFailed
    ensures r.err.None? ==>
              r.steps == |DownloadSteps(mode)| && r.written == s.get.bodyLen + (if mode == AppendMode then 1 else 0)
    ensures !IsOK(s.get) ==> r.err == Some(Wrapped(Downloading, DownLoadFile(s.get).error))
    ensures r.err.Some? ==>
              (Is(r.err.value, GitignoreNotFound) <==> IsNotFound(s.get)) && !Is(r.err.value, OpCancelledByUser)
  {
    match DownLoadFile(s.get)
    case Err(e) => Attempt(0, Some(Wrapped(Downloading, e)), 1)
    case Ok(n) =>
      var w := WriteBody(s.open, s.separator, s.copy, mode);
      Attempt(if w.err.None? then n + (if mode == AppendMode then 1 else 0) else 0, w.err, 1 + w.steps)
  }

  /** The download steps are in workflow order. */
  lemma DownloadStepsOrdered(mode: Mode)
    ensures Ordered(DownloadSteps(mode))
  {
    var d := DownloadSteps(mode);
    assert Rank(d[0]) == 3 && Rank(d[1]) == 4 && Rank(d[|d| - 1]) == 6;
  }

  /** A prefix of an ordered trace is ordered. */
  lemma OrderedPrefix(trace: seq<Effect>, n: nat)
    requires Ordered(trace) && n <= |trace|
    ensures Ordered(trace[..n])
  {
  }

  /** Every prefix of the download steps comes after the question; it
      opens the file with the mode's flags and 0644, and only
      from its second step on; and it holds the separator exactly when
      appending and past the open; the copy is its last step. */
  lemma DownloadPrefixShape(mode: Mode, k: nat)
    requires k <= |DownloadSteps(mode)|
    ensures forall e :: e in DownloadSteps(mode)[..k] ==> Rank(e) >= 3
    ensures forall e :: e in DownloadSteps(mode)[..k] && Rank(e) >= 4 ==> k >= 2
    ensures forall e :: e in DownloadSteps(mode)[..k] && e.OpenFile? ==> e == OpenFile(Flags(mode), FilePerm)
    ensures Fetch in DownloadSteps(mode)[..k] <==> k >= 1
    ensures WriteSeparator in DownloadSteps(mode)[..k] <==> mode == AppendMode && k >= 3
    ensures CopyBody in DownloadSteps(mode)[..k] <==> k == |DownloadSteps(mode)|
  {
    var d := DownloadSteps(mode);
    var open := OpenFile(Flags(mode), FilePerm);
    if k == 0 {
      assert d[..k] == [];
    } else if k == 1 {
      assert d[..k] == [Fetch];
    } else if k == 2 {
      assert d[..k] == [Fetch, open];
    } else if mode == AppendMode {
      assert k == 3 ==> d[..k] == [Fetch, open, WriteSeparator];
      assert k == 4 ==> d[..k] == [Fetch, open, WriteSeparator, CopyBody];
    } else {
      assert d[..k] == [Fetch, open, CopyBody];
    }
  }

  lemma OrderedConcat(a: seq<Effect>, b: seq<Effect>)
    requires Ordered(a) && Ordered(b)
    requires forall i, j :: 0 <= i < |a| && 0 <= j < |b| ==> Rank(a[i]) < Rank(b[j])
    ensures Ordered(a + b)
  {
  }

  /** The steps of a run in which nothing fails: the steps `before` the
      download, then the download steps. A run that stops early has taken
      a prefix of its plan. */
  function Plan(before: seq<Effect>, mode: Mode): seq<Effect>
  {
    before + DownloadSteps(mode)
  }

  /** Every prefix of a plan whose first steps are in workflow order and
      precede the download is in workflow order; its steps before the
      download are among the first steps; it opens the file only past the
      download, with the mode's flags and 0644; it downloads exactly when
      it is longer than the first steps; and it holds the separator exactly
      when appending and past the open; it copies the body only as its
      last step. */
  lemma PlanShape(before: seq<Effect>, mode: Mode, n: nat)
    requires Ordered(before) && forall e :: e in before ==> Rank(e) < 3
    requires n <= |Plan(before, mode)|
    ensures Ordered(Plan(before, mode)[..n])
    ensures forall e :: e in Plan(before, mode)[..n] && Rank(e) < 3 ==> e in before
    ensures forall e :: e in Plan(before, mode)[..n] && Rank(e) >= 4 ==> n >= |before| + 2
    ensures forall e :: e in Plan(before, mode)[..n] && e.OpenFile? ==> e == OpenFile(Flags(mode), FilePerm)
    ensures Fetch in Plan(before, mode)[..n] <==> n > |before|
    ensures WriteSeparator in Plan(before, mode)[..n] <==> mode == AppendMode && n >= |before| + 3
    ensures CopyBody in Plan(before, mode)[..n] <==> n == |Plan(before, mode)|
  {
    var p := Plan(before, mode)[..n];
    if n <= |before| {
      assert p == before[..n];
      assert forall e :: e in p ==> e in before;
    } else {
      var t := DownloadSteps(mode)[..n - |before|];
      assert p == before + t;
      DownloadPrefixShape(mode, n - |before|);
      DownloadStepsOrdered(mode);
      OrderedPrefix(DownloadSteps(mode), n - |before|);
      OrderedConcat(before, t);
    }
  }

  /** The mode the pull writes in: append exactly when the file exists and
      the answer is the append constant. */
  function ChosenMode(s: Script): Mode
  {
    if s.stat == Found && s.prompt.Answered? then ModeFor(s.prompt.choice) else OverwriteMode
  }

  /** The steps of `PullIgnoreFile` before the download: the probe, the
      stat, and the question when the file exists. */
  function Before(s: Script): seq<Effect>
  {
    if s.stat == Found then [Probe, StatFile, AskUser] else [Probe, StatFile]
  }

  /** The steps before the download, then as many of the transfer's as it
      attempted. */
  function Continue(before: seq<Effect>, mode: Mode, t: Attempt): PullOutcome
    requires t.steps <= |DownloadSteps(mode)|
  {
    PullOutcome(t.written, t.err, Plan(before, mode)[..|before| + t.steps])
  }

  /** How a trace of `PullIgnoreFile` relates to the script: it is a
      non-empty prefix of the plan; a failed probe stops at once; otherwise
      every step before the download is taken; the download is reached
      exactly when neither the stat nor the prompt stopped the pull; the
      file is opened only after a GET answered 200, the run goes past the
      open exactly when that open succeeded, and it reaches the copy
      exactly when, in addition, no separator write failed. */
  predicate FollowsPlan(s: Script, trace: seq<Effect>)
  {
    && 1 <= |trace| <= |Plan(Before(s), ChosenMode(s))|
    && trace == Plan(Before(s), ChosenMode(s))[..|trace|]
    && (if IsOK(s.head) then |trace| >= |Before(s)| else |trace| == 1)
    && (|trace| > |Before(s)| <==>
          && IsOK(s.head) && s.stat != StatError
          && !(s.stat == Found && (s.prompt.PromptFailed? || s.prompt == Answered(Value(Cancel)))))
    && (|trace| >= |Before(s)| + 2 ==> IsOK(s.get))
    && (|trace| >= |Before(s)| + 3 <==> |trace| > |Before(s)| && IsOK(s.get) && s.open != IoFailed)
    && (|trace| == |Plan(Before(s), ChosenMode(s))| <==>
          && |trace| > |Before(s)| && IsOK(s.get) && s.open != IoFailed
          && !(ChosenMode(s) == AppendMode && s.separator == IoFailed))
  }

  /** Any trace that follows the plan starts with the probe and takes each
      step at most once, in workflow order; it asks exactly when the probe
      succeeded and the file exists. */
  lemma PlanOrdered(s: Script, trace: seq<Effect>)
    requires FollowsPlan(s, trace)
    ensures trace[0] == Probe && Ordered(trace)
    ensures AskUser in trace <==> IsOK(s.head) && s.stat == Found
  {
    PlanShape(Before(s), ChosenMode(s), |trace|);
    assert trace[0] == Before(s)[0];
    if IsOK(s.head) && s.stat == Found {
      assert trace[2] == Before(s)[2];
    }
  }

  /** Any trace that follows the plan opens the file only after a GET
      answered 200, with the flags of the chosen mode and 0644. */
  lemma PlanOpens(s: Script, trace: seq<Effect>)
    requires FollowsPlan(s, trace)
    ensures forall e :: e in trace && e.OpenFile? ==> IsOK(s.get) && e == OpenFile(Flags(ChosenMode(s)), FilePerm)
  {
    PlanShape(Before(s), ChosenMode(s), |trace|);
  }

  /** Any trace that follows the plan writes the separator exactly when the
      user chose append, the GET was answered with 200 and the open
      succeeded. */
  lemma PlanSeparator(s: Script, trace: seq<Effect>)
    requires FollowsPlan(s, trace)
    ensures WriteSeparator in trace <==>
              && IsOK(s.head) && s.stat == Found && s.prompt == Answered(Value(Append))
              && IsOK(s.get) && s.open != IoFailed
  {
    PlanShape(Before(s), ChosenMode(s), |trace|);
    ValuesDistinct(Append, Cancel);
    assert ChosenMode(s) == AppendMode <==> s.stat == Found && s.prompt == Answered(Value(Append));
  }

  /** Any trace that follows the plan copies the body exactly when the pull
      got past the stat and the prompt, the GET was answered with 200, the
      open succeeded and, when appending, so did the separator write. */
  lemma PlanCopies(s: Script, trace: seq<Effect>)
    requires FollowsPlan(s, trace)
    ensures CopyBody in trace <==>
              && IsOK(s.head) && s.stat != StatError
              && !(s.stat == Found && (s.prompt.PromptFailed? || s.prompt == Answered(Value(Cancel))))
              && IsOK(s.get) && s.open != IoFailed
              && !(ChosenMode(s) == AppendMode && s.separator == IoFailed)
  {
    PlanShape(Before(s), ChosenMode(s), |trace|);
  }

  /** `PullIgnoreFile`. The probe comes first and any failure of it,
      transport errors included, is reported as not-found; the injected
      `fileCheck` is never consulted (`Exists` stats the file itself); the
      prompt runs only when the file exists; the download is reached
      exactly when neither the stat nor the prompt stopped the pull; every
      error path reports 0 bytes, and success reports the content length
      plus one in append mode. */
  function PullIgnoreFile(s: Script): (r: PullOutcome)
    ensures FollowsPlan(s, r.trace)
    ensures !IsOK(s.head) ==> r == PullOutcome(0, Some(GitignoreNotFound), [Probe])
    ensures r.err.Some? ==> r.written == 0
    ensures r.err.Some? && |r.trace| > |Before(s)| ==>
              (Is(r.err.value, GitignoreNotFound) <==> IsNotFound(s.get)) && !Is(r.err.value, OpCancelledByUser)
    ensures r.err == Some(OpCancelledByUser) <==>
              IsOK(s.head) && s.stat == Found && s.prompt == Answered(Value(Cancel))
    ensures r.err.None? <==>
              && IsOK(s.head) && s.stat != StatError
              && !(s.stat == Found && (s.prompt.PromptFailed? || s.prompt == Answered(Value(Cancel))))
              && IsOK(s.get) && s.open != IoFailed
              && (ChosenMode(s) == AppendMode ==> s.separator != IoFailed) && s.copy != IoFailed
    ensures r.err.None? ==>
              && IsOK(s.get) && r.trace == Plan(Before(s), ChosenMode(s))
              && r.written == s.get.bodyLen + (if ChosenMode(s) == AppendMode then 1 else 0)
  {
    var (available, _) := ResourceAvailable(s.head);
    if !available then PullOutcome(0, Some(GitignoreNotFound), [Probe])
    else
      var (fileExists, err) := Exists(s.stat);
      if err.Some? then PullOutcome(0, Some(Wrapped(CheckingFile, err.value)), [Probe, StatFile])
      else if fileExists then
        match s.prompt
        case PromptFailed(cause) => PullOutcome(0, Some(Wrapped(ReadingInput, cause)), [Probe, StatFile, AskUser])
        case Answered(answer) =>
          if answer == Value(Cancel) then PullOutcome(0, Some(OpCancelledByUser), [Probe, StatFile, AskUser])
          else Continue([Probe, StatFile, AskUser], ModeFor(answer), Transfer(s, ModeFor(answer)))
      else Continue([Probe, StatFile], OverwriteMode, Transfer(s, OverwriteMode))
  }

  /** A pull starts with the probe and takes each step at most once, in
      workflow order; it asks exactly when the probe succeeded and the file
      exists. */
  lemma PullTraceOrdered(s: Script)
    ensures PullIgnoreFile(s).trace[0] == Probe && Ordered(PullIgnoreFile(s).trace)
    ensures AskUser in PullIgnoreFile(s).trace <==> IsOK(s.head) && s.stat == Found
  {
    PlanOrdered(s, PullIgnoreFile(s).trace);
  }

  /** The separator is written exactly when the user chose append, the GET
      was answered with 200 and the open succeeded. */
  lemma SeparatorOnlyWhenAppending(s: Script)
    ensures WriteSeparator in PullIgnoreFile(s).trace <==>
              && IsOK(s.head) && s.stat == Found && s.prompt == Answered(Value(Append))
              && IsOK(s.get) && s.open != IoFailed
  {
    PlanSeparator(s, PullIgnoreFile(s).trace);
  }

  /** The body is copied only after every earlier step succeeded; in
      particular a failed separator write stops the pull before the copy. */
  lemma CopyOnlyAfterSeparator(s: Script)
    ensures CopyBody in PullIgnoreFile(s).trace <==>
              && IsOK(s.head) && s.stat != StatError
              && !(s.stat == Found && (s.prompt.PromptFailed? || s.prompt == Answered(Value(Cancel))))
              && IsOK(s.get) && s.open != IoFailed
              && !(ChosenMode(s) == AppendMode && s.separator == IoFailed)
  {
    PlanCopies(s, PullIgnoreFile(s).trace);
  }

  /** The injected `fileCheck` has no influence on the pull. */
  lemma FileCheckIgnored(s: Script, other: StatOutcome)
    ensures PullIgnoreFile(s.(fileCheck := other)) == PullIgnoreFile(s)
  {
  }

  /** A failed existence check aborts with 0 bytes before any prompt or
      download, its error wrapped twice. */
  lemma StatErrorAborts(s: Script)
    requires IsOK(s.head) && s.stat == StatError
    ensures PullIgnoreFile(s)
            == PullOutcome(0, Some(Wrapped(CheckingFile, Wrapped(CheckingFile, StatFailure))), [Probe, StatFile])
  {
  }

  /** Choosing cancel stops with the cancellation sentinel: no download and
      the file is never opened. A prompt error stops the same way, wrapped. */
  lemma CancelOrPromptErrorStops(s: Script)
    requires IsOK(s.head) && s.stat == Found
    ensures s.prompt == Answered(Value(Cancel)) ==>
              PullIgnoreFile(s) == PullOutcome(0, Some(OpCancelledByUser), [Probe, StatFile, AskUser])
    ensures s.prompt.PromptFailed? ==>
              PullIgnoreFile(s) == PullOutcome(0, Some(Wrapped(ReadingInput, s.prompt.cause)), [Probe, StatFile, AskUser])
  {
  }

  /** The file is opened with the `APPEND` flags exactly when the user chose
      append, with the `OVERWRITE` flags otherwise (no prior file, overwrite,
      or an unrecognised answer), always with permissions 0644, and only
      after a GET answered 200. */
  lemma OpenModeFollowsChoice(s: Script)
    ensures forall e :: e in PullIgnoreFile(s).trace && e.OpenFile? ==>
              && IsOK(s.get)
              && e.perm == FilePerm
              && (e.flags == Flags(AppendMode) <==> s.stat == Found && s.prompt == Answered(Value(Append)))
  {
    PlanOpens(s, PullIgnoreFile(s).trace);
    assert Flags(AppendMode) != Flags(OverwriteMode) by {
      assert OAppend in Flags(AppendMode);
    }
  }

  /** A GET that is not answered with 200 ends the pull with 0 bytes before
      the file is opened; a 404 stays recognisable as not-found through the
      wrapping. */
  lemma DownloadFailureNeverOpens(s: Script)
    requires !IsOK(s.get)
    ensures PullIgnoreFile(s).written == 0 && PullIgnoreFile(s).err.Some?
    ensures forall e :: e in PullIgnoreFile(s).trace ==> Rank(e) < 4
    ensures IsNotFound(s.get) && Fetch in PullIgnoreFile(s).trace ==>
              PullIgnoreFile(s).err == Some(Wrapped(Downloading, GitignoreNotFound))
              && Is(PullIgnoreFile(s).err.value, GitignoreNotFound)
  {
    var r := PullIgnoreFile(s);
    PlanStopsBeforeOpen(s, r.trace);
  }

  /** A trace that follows the plan of a pull whose GET was not answered
      with 200 never reaches the open, and it downloads exactly when it
      goes one step past the first steps. */
  lemma PlanStopsBeforeOpen(s: Script, trace: seq<Effect>)
    requires FollowsPlan(s, trace) && !IsOK(s.get)
    ensures forall e :: e in trace ==> Rank(e) < 4
    ensures Fetch in trace <==> |trace| == |Before(s)| + 1
  {
    PlanShape(Before(s), ChosenMode(s), |trace|);
    assert |trace| <= |Before(s)| + 1;
  }

  /** Which failures the probe, the stat and the prompt: the probe
      answered 200, the stat did not fail, and, for an existing file, the
      prompt answered something other than cancel. */
  predicate DownloadReached(s: Script)
  {
    && IsOK(s.head) && s.stat != StatError
    && !(s.stat == Found && (s.prompt.PromptFailed? || s.prompt == Answered(Value(Cancel))))
  }

  /** Which failures callers recognise as not-found with `errors.Is`: a
      failed probe, a 404 on the GET, and a prompt error that itself wraps
      the sentinel; never a failed stat, a cancel, or a failed write. */
  lemma NotFoundClassified(s: Script)
    requires PullIgnoreFile(s).err.Some?
    ensures Is(PullIgnoreFile(s).err.value, GitignoreNotFound) <==>
              || !IsOK(s.head)
              || (DownloadReached(s) && IsNotFound(s.get))
              || (IsOK(s.head) && s.stat == Found && s.prompt.PromptFailed? && Is(s.prompt.cause, GitignoreNotFound))
  {
  }

  /** Byte accounting on success: the content length, plus the one newline
      written first when appending. */
  lemma SuccessCountsBytes(s: Script)
    requires PullIgnoreFile(s).err.None?
    ensures s.stat == Found && s.prompt == Answered(Value(Append)) ==>
              PullIgnoreFile(s).written == s.get.bodyLen + 1
    ensures !(s.stat == Found && s.prompt == Answered(Value(Append))) ==>
              PullIgnoreFile(s).written == s.get.bodyLen
  {
  }

  /** The prompt of this package plugged in as the prompt function: it
      answers with one of the three constants, or fails. */
  function ConsolePrompt(input: Input): (r: PromptOutcome)
    ensures r.Answered? <==> PromptForOverwrite(input).answer.Ok?
    ensures r.Answered? ==> exists c :: r.choice == Value(c)
  {
    match PromptForOverwrite(input).answer
    case Ok(c) => Answered(Value(c))
    case Err(e) => PromptFailed(e)
  }

  /** The switch recognises every constant the prompt of this package can
      return, the mistyped `ChoiceCancel` included, because both sides use
      the same constant: a cancel choice cancels, append downloads in append
      mode, and overwrite downloads in overwrite mode. */
  lemma ChoicesReachSwitch(s: Script, c: Choice)
    requires IsOK(s.head) && s.stat == Found && s.prompt == Answered(Value(c))
    ensures c == Cancel <==> PullIgnoreFile(s).err == Some(OpCancelledByUser)
    ensures c != Cancel ==>
              && ChosenMode(s) == (if c == Append then AppendMode else OverwriteMode)
              && |PullIgnoreFile(s).trace| == 3 + Transfer(s, ChosenMode(s)).steps
              && PullIgnoreFile(s).err == Transfer(s, ChosenMode(s)).err
              && PullIgnoreFile(s).written == Transfer(s, ChosenMode(s)).written
  {
    ValuesDistinct(Cancel, c);
    ValuesDistinct(Append, c);
  }
}

=== FILE: seqs.dfy ===
/** Facts about sequences and their multisets that the order-independence
    proofs share. */
module Seqs {
  /** The head of `a` sits at some index `i` of its permutation `b`, and the
      rest of `a` is a permutation of `b` without that element. */
  lemma RemoveHead<T>(a: seq<T>, b: seq<T>) returns (i: nat)
    requires a != [] && multiset(a) == multiset(b)
    ensures i < |b| && b[i] == a[0] && b == b[..i] + [a[0]] + b[i + 1..]
    ensures multiset(a[1..]) == multiset(b[..i] + b[i + 1..])
  {
    assert a[0] in multiset(b);
    i :| 0 <= i < |b| && b[i] == a[0];
    SplitAt(b, i);
    assert a == [a[0]] + a[1..];
    assert multiset(a) == multiset{a[0]} + multiset(a[1..]);
    MultisetCancel(multiset(a[1..]), multiset(b[..i] + b[i + 1..]), a[0]);
  }

  lemma MultisetCancel<T>(m1: multiset<T>, m2: multiset<T>, x: T)
    requires m1 + multiset{x} == m2 + multiset{x}
    ensures m1 == m2
  {
    assert m1 == (m1 + multiset{x}) - multiset{x};
    assert m2 == (m2 + multiset{x}) - multiset{x};
  }

  lemma MultisetMiddle<T>(p: seq<T>, q: seq<T>, r: seq<T>)
    ensures multiset(p + q + r) == multiset(p + r) + multiset(q)
  {
  }

  /** Taking element `i` out of a sequence. */
  lemma SplitAt<T>(s: seq<T>, i: nat)
    requires i < |s|
    ensures s == s[..i] + [s[i]] + s[i + 1..]
    ensures multiset(s) == multiset(s[..i] + s[i + 1..]) + multiset{s[i]}
  {
    assert s == s[..i] + [s[i]] + s[i + 1..];
  }

  /** Lists with equal heads and equal tails are equal. */
  lemma ConsEqual<T>(a: seq<T>, b: seq<T>)
    requires a != [] && b != [] && a[0] == b[0] && a[1..] == b[1..]
    ensures a == b
  {
    assert a == [a[0]] + a[1..];
    assert b == [b[0]] + b[1..];
  }
}

=== FILE: text.dfy ===
/** The string helpers the listing and the prompt lean on: lower-casing,
    `strings.TrimSpace`, `filepath.Ext`, `strings.TrimSuffix` and the
    ordering of `strings.Compare`. Strings are sequences of Unicode scalar
    values; lower-casing is ASCII-only. */
module Text {

  /** `unicode.ToLower` restricted to ASCII letters. */
  function LowerChar(c: char): char
  {
    if 'A' <= c <= 'Z' then (c as int + 32) as char else c
  }

  /** `strings.ToLower`, character by character. */
  function Lower(s: string): (r: string)
    ensures |r| == |s|
    ensures forall i :: 0 <= i < |s| ==> r[i] == LowerChar(s[i])
  {
    seq(|s|, i requires 0 <= i < |s| => LowerChar(s[i]))
  }

  lemma LowerAppend(a: string, b: string)
    ensures Lower(a + b) == Lower(a) + Lower(b)
  {
  }

  /** Go's `unicode.IsSpace`, the set `strings.TrimSpace` strips. */
  predicate IsSpace(c: char)
  {
    || ('\t' <= c <= '\r')
    || c == ' '
    || c as int == 0x85
    || c as int == 0xA0
    || c as int == 0x1680
    || (0x2000 <= c as int <= 0x200A)
    || c as int == 0x2028
    || c as int == 0x2029
    || c as int == 0x202F
    || c as int == 0x205F
    || c as int == 0x3000
  }

  predicate AllSpace(s: string)
  {
    forall i :: 0 <= i < |s| ==> IsSpace(s[i])
  }

  /** Lower-casing leaves white space alone. */
  lemma LowerKeepsSpace(s: string)
    requires AllSpace(s)
    ensures Lower(s) == s
  {
  }

  lemma LowerCharKeepsNonSpace(c: char)
    requires !IsSpace(c)
    ensures !IsSpace(LowerChar(c))
  {
  }

  /** Drops leading white space. */
  function TrimLeft(s: string): (r: string)
    ensures |r| <= |s| && r == s[|s| - |r|..]
    ensures AllSpace(s[..|s| - |r|])
    ensures r != [] ==> !IsSpace(r[0])
    decreases |s|
  {
    if s != [] && IsSpace(s[0]) then TrimLeft(s[1..]) else s
  }

  /** Drops trailing white space. */
  function TrimRight(s: string): (r: string)
    ensures |r| <= |s| && r == s[..|r|]
    ensures AllSpace(s[|r|..])
    ensures r != [] ==> !IsSpace(r[|r| - 1])
    decreases |s|
  {
    if s != [] && IsSpace(s[|s| - 1]) then
      var r := TrimRight(s[..|s| - 1]);
      assert s[|r|..] == s[..|s| - 1][|r|..] + [s[|s| - 1]];
      r
    else s
  }

  /** How many white-space characters `s` starts with. */
  function LeadingSpace(s: string): (n: nat)
    ensures n <= |s| && AllSpace(s[..n])
  {
    |s| - |TrimLeft(s)|
  }

  /** `strings.TrimSpace`: the infix of `s` that starts after its leading
      white space, with only white space after it, and with no white space
      at either of its own ends. */
  function TrimSpace(s: string): (r: string)
    ensures LeadingSpace(s) + |r| <= |s|
    ensures r == s[LeadingSpace(s)..LeadingSpace(s) + |r|]
    ensures AllSpace(s[LeadingSpace(s) + |r|..])
    ensures r != [] ==> !IsSpace(r[0]) && !IsSpace(r[|r| - 1])
  {
    TrimRight(TrimLeft(s))
  }

  /** Text with no white space at either end is left as it is. */
  lemma TrimSpaceBare(w: string)
    requires w != [] ==> !IsSpace(w[0]) && !IsSpace(w[|w| - 1])
    ensures TrimSpace(w) == w
  {
    assert TrimLeft(w) == w;
    assert TrimRight(w) == w;
  }

  lemma {:induction false} TrimLeftPadding(pre: string, s: string)
    requires AllSpace(pre)
    ensures TrimLeft(pre + s) == TrimLeft(s)
    decreases |pre|
  {
    if pre != [] {
      assert (pre + s)[0] == pre[0];
      assert (pre + s)[1..] == pre[1..] + s;
      TrimLeftPadding(pre[1..], s);
    } else {
      assert pre + s == s;
    }
  }

  lemma {:induction false} TrimRightPadding(s: string, post: string)
    requires AllSpace(post)
    ensures TrimRight(s + post) == TrimRight(s)
    decreases |post|
  {
    if post != [] {
      assert (s + post)[|s + post| - 1] == post[|post| - 1];
      assert (s + post)[..|s + post| - 1] == s + post[..|post| - 1];
      TrimRightPadding(s, post[..|post| - 1]);
    } else {
      assert s + post == s;
    }
  }

  /** Trailing text after a non-blank character survives trimming on the left. */
  lemma {:induction false} TrimLeftKeepsTail(s: string, post: string)
    ensures TrimLeft(s) != [] ==> TrimLeft(s + post) == TrimLeft(s) + post
    ensures TrimLeft(s) == [] ==> TrimLeft(s + post) == TrimLeft(post)
    decreases |s|
  {
    if s != [] {
      assert (s + post)[0] == s[0];
      if IsSpace(s[0]) {
        assert (s + post)[1..] == s[1..] + post;
        TrimLeftKeepsTail(s[1..], post);
      }
    } else {
      assert s + post == post;
    }
  }

  /** White space around a word does not change what `strings.TrimSpace` yields. */
  lemma TrimSpacePadding(pre: string, s: string, post: string)
    requires AllSpace(pre) && AllSpace(post)
    ensures TrimSpace(pre + s + post) == TrimSpace(s)
  {
    assert pre + s + post == pre + (s + post);
    TrimLeftPadding(pre, s + post);
    TrimLeftKeepsTail(s, post);
    if TrimLeft(s) != [] {
      TrimRightPadding(TrimLeft(s), post);
    } else {
      assert AllSpace(TrimLeft(post));
      TrimRightPadding([], TrimLeft(post));
      assert [] + TrimLeft(post) == TrimLeft(post);
    }
  }

  predicate HasSuffix(s: string, suffix: string)
  {
    |suffix| <= |s| && s[|s| - |suffix|..] == suffix
  }

  /** `strings.TrimSuffix`. */
  function TrimSuffix(s: string, suffix: string): (r: string)
    ensures HasSuffix(s, suffix) ==> r + suffix == s
    ensures !HasSuffix(s, suffix) ==> r == s
  {
    if HasSuffix(s, suffix) then s[..|s| - |suffix|] else s
  }

  predicate NoDotOrSlash(s: string)
  {
    forall i :: 0 <= i < |s| ==> s[i] != '.' && s[i] != '/'
  }

  /** The loop of `filepath.Ext` on a slash-separated system: it scans the
      first `n` characters backwards, stopping at a separator, and returns
      everything from the first dot it meets. */
  function ExtScan(path: string, n: nat): (r: string)
    requires n <= |path|
    requires NoDotOrSlash(path[n..])
    ensures HasSuffix(path, r)
    ensures r != [] ==> r[0] == '.' && NoDotOrSlash(r[1..])
    decreases n
  {
    if n == 0 || path[n - 1] == '/' then ""
    else if path[n - 1] == '.' then path[n - 1..]
    else ExtScan(path, n - 1)
  }

  /** `filepath.Ext`: the final extension, dot included, or "" when the last
      path element has no dot. */
  function Ext(path: string): (r: string)
    ensures HasSuffix(path, r)
    ensures r != [] ==> r[0] == '.' && NoDotOrSlash(r[1..])
  {
    ExtScan(path, |path|)
  }

  lemma {:induction false} ExtScanFindsDot(path: string, j: nat, n: nat)
    requires j < n <= |path|
    requires path[j] == '.' && NoDotOrSlash(path[j + 1..])
    ensures NoDotOrSlash(path[n..])
    ensures ExtScan(path, n) == path[j..]
    decreases n
  {
    assert path[n..] == path[j + 1..][n - j - 1..];
    if n - 1 != j {
      assert path[n - 1] == path[j + 1..][n - 1 - (j + 1)];
      ExtScanFindsDot(path, j, n - 1);
    }
  }

  /** `filepath.Ext` returns exactly the text from the final dot when no
      separator follows that dot. */
  lemma ExtFromFinalDot(path: string, j: nat)
    requires j < |path| && path[j] == '.' && NoDotOrSlash(path[j + 1..])
    ensures Ext(path) == path[j..]
  {
    ExtScanFindsDot(path, j, |path|);
  }

  /** Lexicographic order on code points, which is what `strings.Compare`
      computes on the UTF-8 bytes: `LexLe(a, b)` means `Compare(a, b) <= 0`. */
  predicate LexLe(a: string, b: string)
    decreases |a|
  {
    a == [] || (b != [] && (a[0] < b[0] || (a[0] == b[0] && LexLe(a[1..], b[1..]))))
  }

  lemma {:induction false} LexLeTotal(a: string, b: string)
    ensures LexLe(a, b) || LexLe(b, a)
    decreases |a|
  {
    if a != [] && b != [] && a[0] == b[0] {
      LexLeTotal(a[1..], b[1..]);
    }
  }

  lemma {:induction false} LexLeTransitive(a: string, b: string, c: string)
    requires LexLe(a, b) && LexLe(b, c)
    ensures LexLe(a, c)
    decreases |a|
  {
    if a != [] && a[0] == b[0] && b[0] == c[0] {
      LexLeTransitive(a[1..], b[1..], c[1..]);
    }
  }

  lemma {:induction false} LexLeAntisymmetric(a: string, b: string)
    requires LexLe(a, b) && LexLe(b, a)
    ensures a == b
    decreases |a|
  {
    if a != [] {
      LexLeAntisymmetric(a[1..], b[1..]);
      assert a == [a[0]] + a[1..];
      assert b == [b[0]] + b[1..];
    }
  }
}
